=== FILE: README.md ===
# Mashup creator core, modelled in Dafny

`102303119.py` is a command-line tool:
`python 102303119.py <SingerName> <NumberOfVideos> <AudioDuration> <OutputFileName>`.
It searches YouTube for the singer and downloads the audio of the first N
results whose audio downloads; a result with no audio stream, or whose
download raises, is skipped. It converts each download to MP3 and cuts
the first Y seconds of each. It then concatenates the clips into one output
file. This project models the tool's deterministic core:

- **`validate_inputs`**: the four-rule argument check. It collects every error
  and does not stop at the first. It is modelled as the method
  `Validation.ValidateInputs`, which appends to a list in four steps as the
  program does. That method is proved equal to a per-argument specification
  (`ExpectedErrors`), and its list is proved empty exactly when an
  independent statement of the four rules (`Acceptable`) holds.
- **Python's `int()` on strings** (module `PyText`): surrounding whitespace,
  an optional sign, then decimal digits, with single underscores allowed
  between digits. `str.strip` and `str.endswith` are modelled there too. The
  two whitespace sets differ: `strip()` removes every `str.isspace`
  character, while `int()` skips only ASCII tab, line feed, vertical tab,
  form feed, carriage return and space, plus the non-ASCII `isspace`
  characters. The four separators U+001C to U+001F are whitespace to
  `strip()` but make `int()` raise (`PyText.ParseIntSeparatorExample`).
- **`sanitize_filename`**: deletion of the characters `< > : " / \ | ? *`. It
  is a pure function with lemmas.
- **`download_videos`, `convert_to_audio`, `cut_audio`**: the three
  best-effort loops. Each is a method with a `while` loop, proved equal to a
  specification function. The specifications share one notion,
  `KeptIndices`: the positions of the items whose processing succeeded.
  - The download loop takes the first N successes and names them after the
    success counter (`video_{count}.mp4`).
  - Convert and cut keep the inputs that succeeded, in order, and name them
    after the input index (`audio_{i}.mp3`, `cut_{i}.mp3`).
  - Each file carries `origin`, the index of the search result whose audio
    it holds. This makes order and provenance statable across stages.
- **`main`**: the control flow, modelled as the method `Mashup.RunMain`. It
  runs over a `World` value that fixes whether `tempfile.mkdtemp()` raises,
  the temporary directory's name, and the outcome of every external call.
  `mkdtemp` is called outside the `try`, so when it raises the exception
  escapes `main`: status 1, and no `finally` block runs. It produces a `Report` with these
  fields:
  - the exit status and the fault that caused it;
  - the trace of file-system effects (temp dir created, stages entered,
    `rmtree` called on the temp dir);
  - whether cleanup failed;
  - whether the shortfall warning was printed;
  - the clips written to the output file.

The duration rule accepts 20 (`audio_duration < 20` is the refusal test), but
its message reads "Audio duration must be greater than 20 seconds". The model
follows the code: `Validation.DurationBoundary` proves that 19 is refused and
20 accepted. The message text is kept verbatim in `Validation.Message`, and
`Validation.ErrorLines` gives the lines `main` prints for an error list.

## Model

| member | source | states |
|---|---|---|
| Validation.ValidateInputs | 102303119.py:12-38 | The list built step by step equals each argument's error, if any, in argument order. It is empty exactly when all four rules hold, and it has at most 4 entries. |
| Validation.ErrorsEmptyIffAcceptable | 102303119.py:14-38 | No error exactly when the name is non-blank, the count parses to more than 10, the duration parses to at least 20, and the output is non-blank and ends in `.mp3`. |
| Validation.ErrorsOrderedByField | 102303119.py:14-38 | Errors appear in the order name, count, duration, output, with at most one per argument. |
| Validation.ErrorsCollected | 102303119.py:16-36 | Each argument's error is reported whatever the other arguments are: nothing short-circuits. |
| Validation.MessagesDistinct | 102303119.py:17-36 | No two different errors share a message. |
| Validation.ErrorLinesIdentifyErrors | 102303119.py:189-191 | The printed "  - message" lines determine the error list: two different lists never print the same report. |
| Validation.MessagesExclusive | 102303119.py:19-36 | "valid integer" and the range message never both appear for one number. A blank output name never also gets the extension message. |
| Validation.OneErrorPerField | 102303119.py:14-38 | An error in the list is the one its argument's rule produced. |
| Validation.VideoCountBoundary | 102303119.py:20-22 | A written-out count n is refused with "greater than 10" exactly when n <= 10: 10 is refused and 11 accepted. |
| Validation.DurationBoundary | 102303119.py:27-29 | A written-out duration n is refused exactly when n < 20: 19 is refused and 20 accepted. |
| Validation.NameCheck | 102303119.py:16-17 | The name is refused exactly when it is empty or its `strip()` is empty. |
| Validation.ErrorsAtMostFour | 102303119.py:14-38 | The list holds at most four errors. |
| Validation.OutputCheck | 102303119.py:33-36 | An empty or blank output name gets the empty-name error only. Otherwise a name not ending in `.mp3` gets the extension error, and any other name none. |
| Validation.SegmentField | 102303119.py:14-38 | In a list made of at most one error per argument, in argument order, the k-th error belongs to the argument its position falls in. |
| Validation.SingerNameErrorField | 102303119.py:16-17 | The name rule only produces a name error. |
| Validation.VideoCountErrorField | 102303119.py:19-24 | The count rule only produces count errors. |
| Validation.DurationErrorField | 102303119.py:26-31 | The duration rule only produces duration errors. |
| Validation.OutputFileErrorField | 102303119.py:33-36 | The output rule only produces output errors. |
| PyText.TrimEmptyIffBlank | 102303119.py:16 | Trimming leaves nothing exactly when every character is whitespace of that set. For `strip()` this decides the test `not s or not s.strip()`. |
| PyText.TrimStartShape | 102303119.py:16 | For either whitespace set, leading-whitespace removal yields a suffix that starts with a non-space and removes only whitespace. |
| PyText.TrimEndShape | 102303119.py:16 | For either whitespace set, trailing-whitespace removal yields a prefix that ends with a non-space and removes only whitespace. |
| PyText.TrimStartBlank | 102303119.py:16 | Stripping an all-whitespace string from the left leaves nothing. |
| PyText.TrimNoop | 102303119.py:16 | A string that begins and ends with a non-space is its own trim. |
| PyText.TrimStartBlankPrefix | 102303119.py:20 | Leading whitespace added before a string is removed again by left stripping. |
| PyText.TrimEndBlankSuffix | 102303119.py:20 | Trailing whitespace added after a string is removed again by right stripping. |
| PyText.TrimStartAppend | 102303119.py:20 | Left stripping a concatenation strips only into the second part when the first is all whitespace, and only the first part otherwise. |
| PyText.TrimIgnoresPadding | 102303119.py:16 | For either whitespace set, `(pre + s + post)` trims to what `s` trims to when `pre` and `post` are all whitespace of that set. |
| PyText.NatToStringValue | 102303119.py:20 | The decimal rendering of n reads back as n. |
| PyText.NumberCharNotSpace | 102303119.py:20 | Digits and signs are not whitespace, so stripping never eats into a number. |
| PyText.ParseIntRoundTrip | 102303119.py:20 | `int(str(n)) == n` for every integer n. |
| PyText.ParseInt | 102303119.py:20-24 | `int()` succeeds only on a string that, once its `int()` whitespace is dropped, is a sign or digit followed by digits and underscores and ending in a digit, with a minus sign in front of any negative value. A string made only of `int()` whitespace raises `ValueError`. |
| PyText.ParseStrippedShape | 102303119.py:20-24 | The same shape for a string with no surrounding whitespace. |
| PyText.DigitRunChars | 102303119.py:20 | A digit run starts and ends with a digit and holds only digits and underscores. |
| PyText.DigitRunValueSkipsUnderscore | 102303119.py:20 | Inserting an underscore into a digit string does not change its value. |
| PyText.DigitRunJoin | 102303119.py:20 | Two digit runs joined by one underscore form a digit run, with the value of the two runs written without it. |
| PyText.ParseIntIgnoresPadding | 102303119.py:20 | Tabs, line feeds, vertical tabs, form feeds, carriage returns, spaces and non-ASCII whitespace around a number do not change what `int()` returns. |
| PyText.ParseIntSeparatorExample | 102303119.py:16-24 | `"\x1c11".strip()` is `"11"`, but `int("\x1c11")` raises `ValueError`. |
| PyText.ParseStrippedDigits | 102303119.py:20 | A digit string, with or without a leading sign, parses to its decimal value with that sign. |
| PyText.NatToStringInjective | 102303119.py:69 | Different counters render to different decimal strings. |
| PyText.ParseIntSignExample | 102303119.py:27 | `int("+20") == 20`. |
| PyText.ParseIntUnderscoreExample | 102303119.py:20 | `int("1_000") == 1000`. |
| PyText.ParseIntLeadingZeroExample | 102303119.py:20 | `int("007") == 7`. |
| PyText.ParseIntMisplacedUnderscoreExample | 102303119.py:20-24 | `int("1__0")` raises `ValueError`. |
| PyText.ParseIntDecimalPointExample | 102303119.py:20-24 | `int("11.0")` raises `ValueError`. |
| PyText.ParseIntBlankExample | 102303119.py:20-24 | `int("  ")` raises `ValueError`. |
| Sanitize.SanitizeFilename | 102303119.py:41-43 | The result contains none of the nine unsafe characters and is no longer than the input. |
| Sanitize.SanitizeCounts | 102303119.py:43 | Each unsafe character occurs 0 times in the result. Every other character occurs as often as in the input. |
| Sanitize.SanitizePrefixStep | 102303119.py:43 | Read left to right, each safe character is appended once and each unsafe one dropped, so the kept characters stay in order. |
| Sanitize.SanitizeAppend | 102303119.py:43 | Sanitizing a concatenation equals concatenating the sanitized parts. |
| Sanitize.SanitizeChar | 102303119.py:43 | One character is deleted exactly when it is unsafe. |
| Sanitize.SanitizeKeepsSafe | 102303119.py:43 | A name with no unsafe character comes back unchanged. |
| Sanitize.SanitizeIdempotent | 102303119.py:43 | Sanitizing twice equals sanitizing once. |
| Stages.DownloadVideos | 102303119.py:46-87 | The loop's result is the specification `Downloads`, or a failure when the search raises. The warning is printed exactly when fewer than `num_videos` files were saved. |
| Stages.DownloadsShape | 102303119.py:53-72 | At most `num_videos` files are saved. The k-th is `video_{k}.mp4`, with no gaps. Each comes from a result that downloaded, in search order. |
| Stages.DownloadNeverAborts | 102303119.py:59-79 | A result that downloads while the counter is below `num_videos` is kept, at the counter's position, whatever failed before it. |
| Stages.ShortfallTakesEverySuccess | 102303119.py:55-82 | When fewer files than requested come back, every result that could be downloaded was. |
| Stages.DownloadsEmpty | 102303119.py:55-84 | For a positive request the stage returns nothing exactly when no result downloads. |
| Stages.DownloadsTake | 102303119.py:65-73 | A successful download below the limit appends one file named after the counter, and the counter grows by one. |
| Stages.DownloadsSkip | 102303119.py:74-79 | A result with no audio stream or that raises changes neither the list nor the counter. |
| Stages.DownloadsSettled | 102303119.py:56-57 | Once the counter reaches `num_videos`, later results change nothing. |
| Stages.DownloadsAllSucceed | 102303119.py:55-72 | When every result downloads, the first `num_videos` are taken as `video_0` ... in order. |
| Stages.ConvertToAudio | 102303119.py:90-112 | The loop's result is the specification `Converted`. |
| Stages.ConvertedShape | 102303119.py:95-110 | The result keeps exactly the inputs that converted, in order. Each is named `audio_{i}.mp3` after its input index i. |
| Stages.ConvertedStep | 102303119.py:95-110 | Each input adds one `audio_{i}.mp3` file if it converts, and nothing otherwise. |
| Stages.ConvertedEmpty | 102303119.py:95-112 | The stage returns nothing exactly when no input converts. |
| Stages.ConvertedAllSucceed | 102303119.py:95-106 | With no failure, the names are `audio_0.mp3` ... with no gaps. |
| Stages.CutAudio | 102303119.py:115-143 | The loop's result is the specification `CutClips`. |
| Stages.CutClipsShape | 102303119.py:120-141 | The result keeps exactly the inputs that could be cut, in order, each named `cut_{i}.mp3`. Each clip lasts min(duration, source length): never more than either, the whole source when it is shorter, exactly the duration otherwise. |
| Stages.CutClipsStep | 102303119.py:120-141 | Each input adds one clip `cut_{i}.mp3` of min(duration, source length) seconds if it can be cut, and nothing otherwise. |
| Stages.CutClipsEmpty | 102303119.py:120-143 | The stage returns nothing exactly when no input can be cut. |
| Stages.CutClipsAllSucceed | 102303119.py:120-136 | With no failure, every input becomes `cut_{i}.mp3` of min(duration, source length) seconds. |
| Stages.NamingContrast | 102303119.py:69 | When the first of two results fails, the survivor is `video_0` after download. When the first of two conversions fails, the survivor is `audio_1`. |
| Stages.JoinPathInjective | 102303119.py:67-69 | Joining one directory with two different names gives two different paths. |
| Stages.NumberedNameInjective | 102303119.py:69 | `stem{k}ext` names are distinct for distinct k. |
| Stages.PathsInjective | 102303119.py:69 | Distinct indices give distinct `video_`, `audio_` and `cut_` paths, so no stage overwrites its own output. |
| Stages.DownloadsTraceable | 102303119.py:55-72 | Downloaded files are in search order and come from results that downloaded. |
| Stages.ConvertedTraceable | 102303119.py:95-105 | Conversion preserves search order and invents no source. |
| Stages.CutClipsTraceable | 102303119.py:120-136 | Cutting preserves search order and invents no source. |
| Stages.KeptIndices | 102303119.py:95-110 | The kept positions are in range, strictly increasing, and each one succeeded. |
| Stages.KeptIndicesComplete | 102303119.py:108-110 | A failure elsewhere never drops an item that succeeds. |
| Mashup.RunMain | 102303119.py:171-248 | The run's fault, exit status (0 exactly when there is no fault), effect trace, cleanup failure, warning and merged clips are those of the specification functions. |
| Mashup.RunPipeline | 102303119.py:214-232 | The `try` body yields the fault of the first empty stage or failed merge, enters the stages up to that one, and merges the cut clips only on success. |
| Mashup.PreflightFailuresTouchNothing | 102303119.py:175-194 | A wrong argument count, or any validation error, exits with 1. The temp dir is never created, no stage runs and nothing is merged. |
| Mashup.CleanupExactlyOnce | 102303119.py:201-248 | Once the temp dir exists (arguments accepted and `mkdtemp` did not raise), its removal is attempted (`rmtree` called) exactly once, as the last effect, whichever stage failed. Without it, no removal is attempted. |
| Mashup.TempDirFailureTouchesNothing | 102303119.py:201 | When `mkdtemp` raises, the run exits with 1 with that fault, and enters no stage, attempts no removal, warns nothing and merges nothing. |
| Mashup.RunTraceShape | 102303119.py:201-248 | The trace of every run whose temp dir was created (`TempDirCreated`) starts with the creation and ends with the removal attempt (`rmtree` called), each exactly once. |
| Mashup.PipelineIgnoresCleanup | 102303119.py:214-232 | The `try` body's fault and merged clips do not depend on whether the later `rmtree` call succeeds. |
| Mashup.CleanupDoesNotDecideExit | 102303119.py:242-248 | Whether the `rmtree` call succeeds changes neither the fault (so the exit status) nor the output. |
| Mashup.ExitCodeZeroIff | 102303119.py:175-240 | Status 0 exactly when there are 4 arguments, all valid, `mkdtemp` does not raise, the search succeeds, some result downloads, some download converts, some audio file can be cut, and the merge succeeds. Any other run exits with 1. |
| Mashup.StopsAtConvert | 102303119.py:220-223 | Downloads with no converted file end the `try` body with "No audio files were created", and nothing is merged. |
| Mashup.StopsAtCut | 102303119.py:226-229 | Audio files with no cut clip end the `try` body with "No audio files were cut successfully", and nothing is merged. |
| Mashup.EndsAtMerge | 102303119.py:232 | With clips from all three stages, the run succeeds with exactly those clips merged when the merge succeeds, and fails with nothing merged otherwise. |
| Mashup.StagesReached | 102303119.py:214-232 | A run enters at most the four stages. |
| Mashup.PipelineSucceedsIff | 102303119.py:214-232 | The pipeline raises nothing exactly when each stage has a success and the merge succeeds. |
| Mashup.MashupBounds | 102303119.py:214-232 | A successful run merges between 1 and `num_videos` clips. None is longer than `audio_duration`. They come from distinct downloaded results in search order. The total lasts at most `MaxSeconds(num_videos, audio_duration)` seconds, which `MaxSecondsIsProduct` shows equals `num_videos * audio_duration`. |
| Mashup.PipelineBounds | 102303119.py:214-232 | The same bounds for the pipeline run on parsed numbers. |
| Mashup.StageChainBounds | 102303119.py:214-229 | Whatever each stage meets, the clips out of the three stages obey these bounds. |
| Mashup.SuccessfulRunValidated | 102303119.py:187-201 | A run with status 0 had valid arguments, a count above 10, a duration of at least 20, and a temp dir that was created. |
| Mashup.UniformTotal | 102303119.py:155 | Clips that all last s seconds concatenate to s times their number of seconds. |
| Mashup.TotalSecondsWithin | 102303119.py:155 | At most n clips of at most d seconds concatenate to at most `MaxSeconds(n, d)` seconds, which is d added n times. |
| Mashup.MaxSecondsIsProduct | 102303119.py:155 | d added n times is n*d, so the bound above is the product `num_videos * audio_duration`. |
| Mashup.MaxSecondsNonNegative | 102303119.py:155 | For a non-negative clip length the bound is non-negative. |
| Mashup.ElevenAndTwentyParse | 102303119.py:197-198 | `int("11") == 11` and `int("20") == 20`. |
| Mashup.ExampleArgsAccepted | 102303119.py:187-198 | `"Sharry Maan" 11 20 out.mp3` passes validation and parses to 11 and 20. |
| Mashup.SmoothPipeline | 102303119.py:214-232 | When every result downloads, converts and lasts at least 20 s, the pipeline raises nothing and merges eleven 20-second clips `cut_0.mp3` ... `cut_10.mp3` from results 0..10. |
| Mashup.ExampleRun | 102303119.py:171-248 | That run exits with 0, enters all four stages, and calls `rmtree` once, although that call fails. Its mashup lasts 220 seconds. |

## Left out

- `app.py` (the Flask front end, e-mail via SMTP, `email_validator`, zip packaging) is not part of this model. Its one piece of logic calls `run_from_web` from `mashup_script`, and `mashup_script` is not part of this model.
- Network and media I/O are inputs of the model rather than modelled code. The calls are `Search`, `streams.filter(...).first()`, `download`, `AudioFileClip`, `write_audiofile`, `subclipped`, `concatenate_audioclips`, `tempfile.mkdtemp` (raises or returns a name) and `shutil.rmtree`. Their outcomes are fixed in a `World` value. File contents are represented only by the `origin` index.
- `merge_audio` (lines 146-168) is modelled as success or failure only. The merged clips are its input, and its length is the sum of the clip lengths (`TotalSeconds`). The encoded audio is not modelled.
- Stages.DownloadVideos: an exception raised while iterating `search.results` after some downloads is not modelled. A search that raises is a failure before the first result.
- `print` output and console text are left out, except the seven validation messages and the `  - ` lines that list them (`Validation.ErrorLines`). The header line and the usage line are not modelled. `print` is assumed not to raise: a `print` in the `try` (lines 204-211 and 234-236) or in the cleanup `try` (line 246) that raised, for example on a name stdout cannot encode, would end the run with status 1 or report a cleanup failure, and `World` does not express that.
- Exceptions that are not `Exception` subclasses, such as `KeyboardInterrupt`, are left out. `sys.exit(1)` inside `except` is modelled by its effect: the `finally` block still runs and the status is 1.
- PyText.ParseInt: the limit on the number of digits `int()` accepts (4300 by default from Python 3.11 on, changeable at run time) is not modelled; a longer digit string parses here, where such a Python raises `ValueError`.
- `int()` accepts non-ASCII decimal digits (for example Devanagari or full-width digits). The parser here accepts ASCII digits only.
- `os.path.join(temp_dir, name)` is modelled as `temp_dir + "/" + name`, assuming a directory name without a trailing separator.
- Clip lengths are `real` numbers. moviepy's floating-point durations and rounding are not modelled.
- `sanitize_filename` is defined but never called by the program, so it is modelled on its own.

=== FILE: common.dfy ===
/** Small shared vocabulary: an optional value and the minimum of two reals. */
module Common {

  /** A value that may be absent; `None` stands for a Python call that raised. */
  datatype Option<+T> = None | Some(value: T)

  /** A list holding the value of `o`, or nothing. */
  function Listed<T>(o: Option<T>): seq<T> {
    match o
    case None => []
    case Some(v) => [v]
  }

  /** Python's `min(a, b)` on two numbers. */
  function MinReal(a: real, b: real): (r: real)
    ensures r <= a && r <= b
    ensures r == a || r == b
  {
    if b < a then b else a
  }
}

=== FILE: mashup.dfy ===
/** `main`: the command-line driver. It checks the argument count, validates
    the four arguments, creates a scratch directory (a failure there is an
    uncaught exception, outside the `try`), runs download, convert,
    cut and merge (an empty stage result raises), reports any exception with
    exit status 1, and tries to remove the scratch directory in a `finally`
    block.
    The outside world (search engine, decoder, encoder, file system) is a
    `World` value fixed before the run. */
module Mashup {
  import opened Common
  import opened PyText
  import opened Validation
  import opened Stages

  /** Everything `main` learns from outside the program. */
  datatype World = World(
    mkdtempRaises: bool,                 // whether `tempfile.mkdtemp()` raises
    tempDir: string,                     // what `tempfile.mkdtemp()` returns otherwise
    search: string -> SearchResult,      // `Search(singer_name)` and its results
    converts: MediaFile -> bool,         // whether `convert_to_audio` manages a file
    trim: MediaFile -> TrimOutcome,      // what `cut_audio` meets for a file
    merges: (seq<Clip>, string) -> bool, // whether `merge_audio` writes the output
    cleanupSucceeds: bool)               // whether `shutil.rmtree(temp_dir)` succeeds

  datatype Stage = Download | Convert | Cut | Merge

  /** Why a run ends with status 1. */
  datatype Fault =
    | WrongArgCount                                 // `len(sys.argv) != 5`
    | InvalidInputs(errors: seq<ValidationError>)   // `validate_inputs` complained
    | TempDirFailed                                 // `tempfile.mkdtemp()` raised: a traceback
    | SearchFailed                                  // "Error searching for videos: ..."
    | NoVideos                                      // "No videos were downloaded successfully"
    | NoAudio                                       // "No audio files were created"
    | NoCuts                                        // "No audio files were cut successfully"
    | MergeFailed                                   // "Error merging audio files: ..."

  /** The observable effects of a run on the file system, in order.
      `RemoveTempDir` is the call `shutil.rmtree(temp_dir)`; whether the
      directory is then gone is `World.cleanupSucceeds`. */
  datatype Effect = MakeTempDir | Enter(stage: Stage) | RemoveTempDir

  /** The outcome of one run of `main`. */
  datatype Report = Report(
    exitCode: int,
    fault: Option<Fault>,
    trace: seq<Effect>,
    cleanupFailed: bool,    // "Could not clean up temporary files" was printed
    downloadWarning: bool,  // "Warning: Only ... videos were downloaded" was printed
    mashup: seq<Clip>)      // the clips written, in order, to the output file

  const StageEvents: seq<Effect> := [Enter(Download), Enter(Convert), Enter(Cut), Enter(Merge)]

  function ExitCode(fault: Option<Fault>): int {
    if fault.None? then 0 else 1
  }

  /** The argument vector gets past both pre-flight checks. */
  predicate ArgsAccepted(argv: seq<string>) {
    |argv| == 5 && Acceptable(argv[1], argv[2], argv[3], argv[4])
  }

  // The pipeline inside the `try` block, for already-validated numbers.

  function VideosOf(singer: string, n: int, w: World): Option<seq<MediaFile>> {
    match w.search(singer)
    case SearchRaised => None
    case Results(outcomes) => Some(Downloads(w.tempDir, outcomes, n))
  }

  function AudioOf(videos: seq<MediaFile>, w: World): seq<MediaFile> {
    Converted(w.tempDir, videos, w.converts)
  }

  function ClipsOf(audio: seq<MediaFile>, d: int, w: World): seq<Clip> {
    CutClips(w.tempDir, audio, d, w.trim)
  }

  /** The exception the `try` block ends with, if any. */
  function PipelineFault(singer: string, n: int, d: int, out: string, w: World): Option<Fault> {
    var videos := VideosOf(singer, n, w);
    if videos.None? then Some(SearchFailed)
    else if videos.value == [] then Some(NoVideos)
    else
      var audio := AudioOf(videos.value, w);
      if audio == [] then Some(NoAudio)
      else
        var clips := ClipsOf(audio, d, w);
        if clips == [] then Some(NoCuts)
        else if !w.merges(clips, out) then Some(MergeFailed)
        else None
  }

  /** The clips merged into the output file: those of the cut stage, when the
      whole pipeline succeeds. */
  function PipelineMashup(singer: string, n: int, d: int, out: string, w: World): seq<Clip> {
    if PipelineFault(singer, n, d, out, w).Some? then []
    else ClipsOf(AudioOf(VideosOf(singer, n, w).value, w), d, w)
  }

  /** How many stages a run enters before it stops. */
  function StagesReached(fault: Option<Fault>): (k: nat)
    ensures k <= 4
  {
    match fault
    case None => 4
    case Some(f) =>
      match f
      case WrongArgCount | InvalidInputs(_) | TempDirFailed => 0
      case SearchFailed | NoVideos => 1
      case NoAudio => 2
      case NoCuts => 3
      case MergeFailed => 4
  }

  // The whole run.

  function NumVideos(argv: seq<string>): int
    requires ArgsAccepted(argv)
  {
    ParseInt(argv[2]).value
  }

  function Duration(argv: seq<string>): int
    requires ArgsAccepted(argv)
  {
    ParseInt(argv[3]).value
  }

  function ExpectedFault(argv: seq<string>, w: World): Option<Fault> {
    if |argv| != 5 then Some(WrongArgCount)
    else if !ArgsAccepted(argv) then Some(InvalidInputs(ExpectedErrors(argv[1], argv[2], argv[3], argv[4])))
    else if w.mkdtempRaises then Some(TempDirFailed)
    else PipelineFault(argv[1], NumVideos(argv), Duration(argv), argv[4], w)
  }

  /** The effects of a run whose scratch directory was created
      (`TempDirCreated`) and whose pipeline ended with `fault`. */
  function RunTrace(fault: Option<Fault>): seq<Effect> {
    [MakeTempDir] + StageEvents[..StagesReached(fault)] + [RemoveTempDir]
  }

  /** Whether the scratch directory comes into existence. */
  predicate TempDirCreated(argv: seq<string>, w: World) {
    ArgsAccepted(argv) && !w.mkdtempRaises
  }

  function ExpectedTrace(argv: seq<string>, w: World): seq<Effect> {
    if !TempDirCreated(argv, w) then [] else RunTrace(ExpectedFault(argv, w))
  }

  function ExpectedWarning(argv: seq<string>, w: World): bool {
    && TempDirCreated(argv, w)
    && w.search(argv[1]).Results?
    && |Downloads(w.tempDir, w.search(argv[1]).outcomes, NumVideos(argv))| < NumVideos(argv)
  }

  function ExpectedMashup(argv: seq<string>, w: World): seq<Clip> {
    if !TempDirCreated(argv, w) then []
    else PipelineMashup(argv[1], NumVideos(argv), Duration(argv), argv[4], w)
  }

  // How the `try` block ends, one exit at a time.

  /** The stage each pipeline fault stops at. */
  lemma StagesReachedByFault()
    ensures StagesReached(Some(SearchFailed)) == 1 && StagesReached(Some(NoVideos)) == 1
    ensures StagesReached(Some(NoAudio)) == 2 && StagesReached(Some(NoCuts)) == 3
    ensures StagesReached(Some(MergeFailed)) == 4 && StagesReached(None) == 4
  {
  }

  /** A search that raises ends the pipeline with its wrapped exception. */
  lemma StopsAtSearch(singer: string, n: int, d: int, out: string, w: World)
    requires VideosOf(singer, n, w).None?
    ensures PipelineFault(singer, n, d, out, w) == Some(SearchFailed)
    ensures PipelineMashup(singer, n, d, out, w) == []
  {
  }

  /** No downloaded video raises "No videos were downloaded successfully". */
  lemma StopsAtDownload(singer: string, n: int, d: int, out: string, w: World)
    requires VideosOf(singer, n, w) == Some([])
    ensures PipelineFault(singer, n, d, out, w) == Some(NoVideos)
    ensures PipelineMashup(singer, n, d, out, w) == []
  {
  }

  /** No converted file raises "No audio files were created". */
  lemma StopsAtConvert(singer: string, n: int, d: int, out: string, w: World, videos: seq<MediaFile>)
    requires VideosOf(singer, n, w) == Some(videos) && videos != []
    requires AudioOf(videos, w) == []
    ensures PipelineFault(singer, n, d, out, w) == Some(NoAudio)
    ensures PipelineMashup(singer, n, d, out, w) == []
  {
  }

  /** No cut clip raises "No audio files were cut successfully". */
  lemma StopsAtCut(singer: string, n: int, d: int, out: string, w: World,
                   videos: seq<MediaFile>, audio: seq<MediaFile>)
    requires VideosOf(singer, n, w) == Some(videos) && videos != []
    requires AudioOf(videos, w) == audio && audio != []
    requires ClipsOf(audio, d, w) == []
    ensures PipelineFault(singer, n, d, out, w) == Some(NoCuts)
    ensures PipelineMashup(singer, n, d, out, w) == []
  {
  }

  /** With clips to merge, the run ends with the merge's outcome, and on
      success the output holds exactly the cut clips. */
  lemma EndsAtMerge(singer: string, n: int, d: int, out: string, w: World,
                    videos: seq<MediaFile>, audio: seq<MediaFile>, clips: seq<Clip>)
    requires VideosOf(singer, n, w) == Some(videos) && videos != []
    requires AudioOf(videos, w) == audio && audio != []
    requires ClipsOf(audio, d, w) == clips && clips != []
    ensures PipelineFault(singer, n, d, out, w) == (if w.merges(clips, out) then None else Some(MergeFailed))
    ensures PipelineMashup(singer, n, d, out, w) == (if w.merges(clips, out) then clips else [])
  {
  }

  /** The body of the `try` block: the four stages, each raising when the
      previous one left nothing. `entered` counts the stages started. */
  method RunPipeline(singer: string, n: int, d: int, out: string, w: World)
    returns (fault: Option<Fault>, entered: nat, warned: bool, mashup: seq<Clip>)
    ensures fault == PipelineFault(singer, n, d, out, w)
    ensures entered == StagesReached(fault)
    ensures warned <==> w.search(singer).Results? && |Downloads(w.tempDir, w.search(singer).outcomes, n)| < n
    ensures mashup == PipelineMashup(singer, n, d, out, w)
  {
    StagesReachedByFault();
    mashup := [];
    entered := 1;
    var videoFiles;
    videoFiles, warned := DownloadVideos(w.tempDir, w.search(singer), n);
    assert videoFiles == VideosOf(singer, n, w);
    if videoFiles.None? {
      StopsAtSearch(singer, n, d, out, w);
      return Some(SearchFailed), entered, warned, mashup;
    }
    if videoFiles.value == [] {
      StopsAtDownload(singer, n, d, out, w);
      return Some(NoVideos), entered, warned, mashup;
    }
    entered := 2;
    var audioFiles := ConvertToAudio(w.tempDir, videoFiles.value, w.converts);
    if audioFiles == [] {
      StopsAtConvert(singer, n, d, out, w, videoFiles.value);
      return Some(NoAudio), entered, warned, mashup;
    }
    entered := 3;
    var cutFiles := CutAudio(w.tempDir, audioFiles, d, w.trim);
    if cutFiles == [] {
      StopsAtCut(singer, n, d, out, w, videoFiles.value, audioFiles);
      return Some(NoCuts), entered, warned, mashup;
    }
    entered := 4;
    EndsAtMerge(singer, n, d, out, w, videoFiles.value, audioFiles, cutFiles);
    if !w.merges(cutFiles, out) {
      return Some(MergeFailed), entered, warned, mashup;
    }
    fault := None;
    mashup := cutFiles;
  }

  /** `main`: pre-flight checks, then the pipeline between creating the
      scratch directory and the attempt to remove it. */
  method RunMain(argv: seq<string>, w: World) returns (report: Report)
    ensures report.fault == ExpectedFault(argv, w)
    ensures report.exitCode == ExitCode(report.fault)
    ensures report.trace == ExpectedTrace(argv, w)
    ensures report.cleanupFailed <==> TempDirCreated(argv, w) && !w.cleanupSucceeds
    ensures report.downloadWarning == ExpectedWarning(argv, w)
    ensures report.mashup == ExpectedMashup(argv, w)
  {
    if |argv| != 5 {
      return Report(1, Some(WrongArgCount), [], false, false, []);
    }
    var errors := ValidateInputs(argv[1], argv[2], argv[3], argv[4]);
    if errors != [] {
      return Report(1, Some(InvalidInputs(errors)), [], false, false, []);
    }
    var numVideos := ParseInt(argv[2]).value;
    var audioDuration := ParseInt(argv[3]).value;
    if w.mkdtempRaises {
      // Raised before the `try`: no `finally`, Python exits with status 1.
      return Report(1, Some(TempDirFailed), [], false, false, []);
    }
    var trace := [MakeTempDir];
    var fault, entered, warned, mashup := RunPipeline(argv[1], numVideos, audioDuration, argv[4], w);
    trace := trace + StageEvents[..entered];
    // The `finally` block runs whether or not the pipeline raised.
    trace := trace + [RemoveTempDir];
    var cleanupFailed := !w.cleanupSucceeds;
    report := Report(ExitCode(fault), fault, trace, cleanupFailed, warned, mashup);
  }

  // What a run promises.

  /** A wrong argument count or an invalid argument ends the run with status 1
      before the scratch directory exists, so nothing is created or entered
      and no removal is attempted. */
  lemma PreflightFailuresTouchNothing(argv: seq<string>, w: World)
    requires !ArgsAccepted(argv)
    ensures ExitCode(ExpectedFault(argv, w)) == 1
    ensures ExpectedTrace(argv, w) == [] && ExpectedMashup(argv, w) == []
    ensures |argv| != 5 ==> ExpectedFault(argv, w) == Some(WrongArgCount)
    ensures |argv| == 5 ==>
      && ExpectedFault(argv, w) == Some(InvalidInputs(ExpectedErrors(argv[1], argv[2], argv[3], argv[4])))
      && ExpectedErrors(argv[1], argv[2], argv[3], argv[4]) != []
  {
    if |argv| == 5 {
      ErrorsEmptyIffAcceptable(argv[1], argv[2], argv[3], argv[4]);
    }
  }

  /** A run whose scratch directory was created makes it first, calls
      `rmtree` on it last, and does each exactly once, whichever stage
      failed. */
  lemma RunTraceShape(fault: Option<Fault>)
    ensures var t := RunTrace(fault);
      && multiset(t)[MakeTempDir] == 1 && multiset(t)[RemoveTempDir] == 1
      && t[0] == MakeTempDir && t[|t| - 1] == RemoveTempDir
  {
    var middle := StageEvents[..StagesReached(fault)];
    assert forall e :: e in middle ==> e.Enter?;
    assert multiset(middle)[MakeTempDir] == 0;
    assert multiset(middle)[RemoveTempDir] == 0;
  }

  /** When `mkdtemp` raises, the exception escapes `main`: status 1, and no
      directory, stage or cleanup. */
  lemma TempDirFailureTouchesNothing(argv: seq<string>, w: World)
    requires ArgsAccepted(argv) && w.mkdtempRaises
    ensures ExpectedFault(argv, w) == Some(TempDirFailed) && ExitCode(ExpectedFault(argv, w)) == 1
    ensures ExpectedTrace(argv, w) == [] && ExpectedMashup(argv, w) == []
    ensures !ExpectedWarning(argv, w)
  {
  }

  /** Once the scratch directory exists, its removal is attempted exactly
      once, as the last effect; when it never exists, no removal is
      attempted. */
  lemma CleanupExactlyOnce(argv: seq<string>, w: World)
    ensures var t := ExpectedTrace(argv, w);
      && multiset(t)[MakeTempDir] == (if TempDirCreated(argv, w) then 1 else 0)
      && multiset(t)[RemoveTempDir] == multiset(t)[MakeTempDir]
      && (TempDirCreated(argv, w) ==> t[0] == MakeTempDir && t[|t| - 1] == RemoveTempDir)
  {
    if TempDirCreated(argv, w) {
      RunTraceShape(ExpectedFault(argv, w));
    }
  }

  /** The pipeline does not look at whether cleanup will succeed. */
  lemma PipelineIgnoresCleanup(singer: string, n: int, d: int, out: string, w: World, b: bool)
    ensures PipelineFault(singer, n, d, out, w.(cleanupSucceeds := b)) == PipelineFault(singer, n, d, out, w)
    ensures PipelineMashup(singer, n, d, out, w.(cleanupSucceeds := b)) == PipelineMashup(singer, n, d, out, w)
  {
    var w' := w.(cleanupSucceeds := b);
    assert w'.tempDir == w.tempDir && w'.search == w.search && w'.converts == w.converts;
    assert w'.trim == w.trim && w'.merges == w.merges;
    assert VideosOf(singer, n, w') == VideosOf(singer, n, w);
  }

  /** Whether cleanup succeeds is only reported: it changes neither the exit
      status nor the output. */
  lemma CleanupDoesNotDecideExit(argv: seq<string>, w: World, b: bool)
    ensures ExpectedFault(argv, w.(cleanupSucceeds := b)) == ExpectedFault(argv, w)
    ensures ExpectedMashup(argv, w.(cleanupSucceeds := b)) == ExpectedMashup(argv, w)
  {
    if TempDirCreated(argv, w) {
      PipelineIgnoresCleanup(argv[1], NumVideos(argv), Duration(argv), argv[4], w, b);
    }
  }

  /** Every stage on the way succeeds, stated on the outside world directly:
      some result downloads, some downloaded file converts, some audio file
      can be cut, and the merge writes the output. */
  predicate Succeeds(singer: string, n: int, d: int, out: string, w: World) {
    && w.search(singer).Results?
    && (exists j :: 0 <= j < |w.search(singer).outcomes| && Fetched(w.search(singer).outcomes[j]))
    && var videos := Downloads(w.tempDir, w.search(singer).outcomes, n);
       && (exists i :: 0 <= i < |videos| && w.converts(videos[i]))
       && var audio := Converted(w.tempDir, videos, w.converts);
          && (exists i :: 0 <= i < |audio| && w.trim(audio[i]).Trimmed?)
          && w.merges(CutClips(w.tempDir, audio, d, w.trim), out)
  }

  /** The pipeline's fault is absent exactly when every stage succeeds (the
      count is positive after validation). */
  lemma PipelineSucceedsIff(singer: string, n: int, d: int, out: string, w: World)
    requires n > 0
    ensures PipelineFault(singer, n, d, out, w).None? <==> Succeeds(singer, n, d, out, w)
  {
    if w.search(singer).Results? {
      var o := w.search(singer).outcomes;
      DownloadsEmpty(w.tempDir, o, n);
      var videos := Downloads(w.tempDir, o, n);
      ConvertedEmpty(w.tempDir, videos, w.converts);
      var audio := Converted(w.tempDir, videos, w.converts);
      CutClipsEmpty(w.tempDir, audio, d, w.trim);
    }
  }

  /** Status 0 exactly when there are four arguments, all valid, the scratch
      directory is created, and every stage succeeds; otherwise status 1. */
  lemma ExitCodeZeroIff(argv: seq<string>, w: World)
    ensures ExitCode(ExpectedFault(argv, w)) == 0 <==>
      TempDirCreated(argv, w) && Succeeds(argv[1], NumVideos(argv), Duration(argv), argv[4], w)
    ensures ExitCode(ExpectedFault(argv, w)) in {0, 1}
  {
    if TempDirCreated(argv, w) {
      PipelineSucceedsIff(argv[1], NumVideos(argv), Duration(argv), argv[4], w);
    }
  }

  /** The mashup's total length in seconds, as `concatenate_audioclips` adds
      the clip lengths. */
  function TotalSeconds(clips: seq<Clip>): real {
    if clips == [] then 0.0 else TotalSeconds(clips[..|clips| - 1]) + clips[|clips| - 1].seconds
  }

  /** The longest a mashup of `n` clips of `d` seconds each can last:
      `d` added `n` times. */
  function MaxSeconds(n: int, d: int): real {
    if n <= 0 then 0.0 else MaxSeconds(n - 1, d) + d as real
  }

  /** That bound is the product `n * d`. */
  lemma {:induction false} MaxSecondsIsProduct(n: nat, d: int)
    ensures MaxSeconds(n, d) == n as real * d as real
  {
    if n > 0 {
      MaxSecondsIsProduct(n - 1, d);
      assert (n - 1) as real * d as real + d as real == n as real * d as real;
    }
  }

  /** At most `n` clips of at most `d` seconds each last at most
      `MaxSeconds(n, d)`. */
  lemma {:induction false} TotalSecondsWithin(clips: seq<Clip>, n: int, d: int)
    requires |clips| <= n && 0 <= d
    requires forall k :: 0 <= k < |clips| ==> clips[k].seconds <= d as real
    ensures TotalSeconds(clips) <= MaxSeconds(n, d)
  {
    if clips != [] {
      TotalSecondsWithin(clips[..|clips| - 1], n - 1, d);
    } else {
      MaxSecondsNonNegative(n, d);
    }
  }

  lemma {:induction false} MaxSecondsNonNegative(n: int, d: int)
    requires 0 <= d
    ensures 0.0 <= MaxSeconds(n, d)
  {
    if n > 0 {
      MaxSecondsNonNegative(n - 1, d);
    }
  }

  /** The clips that come out of the three stages: at most `n`, none longer
      than `d` seconds, each from a different search result that downloaded,
      in ranking order, so together at most `n * d` seconds long. */
  lemma StageChainBounds(dir: string, o: seq<FetchOutcome>, n: int, d: int,
                         converts: MediaFile -> bool, trim: MediaFile -> TrimOutcome)
    requires d >= 0
    ensures var clips := CutClips(dir, Converted(dir, Downloads(dir, o, n), converts), d, trim);
      && (clips != [] ==> |clips| <= n)
      && (forall k :: 0 <= k < |clips| ==> clips[k].seconds <= d as real)
      && InRankOrder(ClipFiles(clips))
      && FromResults(ClipFiles(clips), o)
      && (clips != [] ==> TotalSeconds(clips) <= MaxSeconds(n, d))
  {
    var videos := Downloads(dir, o, n);
    var audio := Converted(dir, videos, converts);
    var clips := CutClips(dir, audio, d, trim);
    assert clips != [] ==> |clips| <= n by {
      DownloadsShape(dir, o, n);
      ConvertedShape(dir, videos, converts);
      CutClipsShape(dir, audio, d, trim);
    }
    assert forall k :: 0 <= k < |clips| ==> clips[k].seconds <= d as real by {
      CutClipsShape(dir, audio, d, trim);
    }
    assert InRankOrder(ClipFiles(clips)) && FromResults(ClipFiles(clips), o) by {
      DownloadsTraceable(dir, o, n);
      ConvertedTraceable(dir, videos, converts, o);
      CutClipsTraceable(dir, audio, d, trim, o);
    }
    if clips != [] {
      TotalSecondsWithin(clips, n, d);
    }
  }

  /** A pipeline that succeeds merges between 1 and `n` clips, within the
      bounds of `StageChainBounds`. */
  lemma PipelineBounds(singer: string, n: int, d: int, out: string, w: World)
    requires PipelineFault(singer, n, d, out, w).None?
    requires d >= 0
    ensures w.search(singer).Results?
    ensures var m := PipelineMashup(singer, n, d, out, w);
      && 0 < |m| <= n
      && (forall k :: 0 <= k < |m| ==> m[k].seconds <= d as real)
      && InRankOrder(ClipFiles(m))
      && FromResults(ClipFiles(m), w.search(singer).outcomes)
      && TotalSeconds(m) <= MaxSeconds(n, d)
  {
    var o := w.search(singer).outcomes;
    assert PipelineMashup(singer, n, d, out, w)
        == CutClips(w.tempDir, Converted(w.tempDir, Downloads(w.tempDir, o, n), w.converts), d, w.trim);
    StageChainBounds(w.tempDir, o, n, d, w.converts, w.trim);
  }

  /** A run with status 0 got past the pre-flight checks, and its pipeline,
      run on the parsed numbers, raised nothing. */
  lemma SuccessfulRunValidated(argv: seq<string>, w: World)
    requires ExitCode(ExpectedFault(argv, w)) == 0
    ensures TempDirCreated(argv, w) && NumVideos(argv) > 10 && Duration(argv) >= 20
    ensures PipelineFault(argv[1], NumVideos(argv), Duration(argv), argv[4], w).None?
    ensures ExpectedMashup(argv, w) == PipelineMashup(argv[1], NumVideos(argv), Duration(argv), argv[4], w)
  {
  }

  /** A run with status 0 merged at most `num_videos` clips of at most
      `audio_duration` seconds each, from distinct downloaded results in
      ranking order. */
  lemma MashupBounds(argv: seq<string>, w: World)
    requires ExitCode(ExpectedFault(argv, w)) == 0
    ensures ArgsAccepted(argv) && w.search(argv[1]).Results?
    ensures var m := ExpectedMashup(argv, w);
      && 0 < |m| <= NumVideos(argv)
      && (forall k :: 0 <= k < |m| ==> m[k].seconds <= Duration(argv) as real)
      && InRankOrder(ClipFiles(m))
      && FromResults(ClipFiles(m), w.search(argv[1]).outcomes)
      && TotalSeconds(m) <= MaxSeconds(NumVideos(argv), Duration(argv))
  {
    SuccessfulRunValidated(argv, w);
    PipelineBounds(argv[1], NumVideos(argv), Duration(argv), argv[4], w);
  }

  // A complete run, worked through.

  lemma ElevenAndTwentyParse()
    ensures ParseInt("11") == Some(11) && ParseInt("20") == Some(20)
  {
    ParseStrippedDigits("11");
    assert DigitRunValue("11") == 11 by {
      assert "11"[..1] == "1";
      assert "1"[..0] == [];
    }
    TrimNoop(IntSpaces, "11");
    ParseStrippedDigits("20");
    assert DigitRunValue("20") == 20 by {
      assert "20"[..1] == "2";
      assert "2"[..0] == [];
    }
    TrimNoop(IntSpaces, "20");
  }

  /** `python 102303119.py "Sharry Maan" 11 20 out.mp3` passes validation. */
  lemma ExampleArgsAccepted()
    ensures ArgsAccepted(["102303119.py", "Sharry Maan", "11", "20", "out.mp3"])
    ensures NumVideos(["102303119.py", "Sharry Maan", "11", "20", "out.mp3"]) == 11
    ensures Duration(["102303119.py", "Sharry Maan", "11", "20", "out.mp3"]) == 20
  {
    ElevenAndTwentyParse();
    assert !IsSpace("Sharry Maan"[0]);
    assert !IsSpace("out.mp3"[0]);
    assert "out.mp3"[|"out.mp3"| - 4..] == ".mp3";
  }

  /** The world of the worked example: `results` search results that all
      download, convert and last `source` seconds, a merge that succeeds and
      a scratch directory that cannot be removed. */
  function SmoothWorld(dir: string, results: nat, source: real): World {
    World(false, dir, _ => Results(seq(results, _ => Downloaded)), _ => true,
          _ => Trimmed(source), (_, _) => true, false)
  }

  /** In that world, asking for 11 clips of 20 seconds merges eleven
      20-second clips named `cut_0.mp3` ... `cut_10.mp3`, from the first
      eleven results in order. */
  lemma SmoothPipeline(dir: string, results: nat, source: real, singer: string, out: string)
    requires results >= 11 && source >= 20.0
    ensures PipelineFault(singer, 11, 20, out, SmoothWorld(dir, results, source)).None?
    ensures var m := PipelineMashup(singer, 11, 20, out, SmoothWorld(dir, results, source));
      && |m| == 11
      && forall k :: 0 <= k < 11 ==> m[k] == Clip(MediaFile(CutPath(dir, k), k), 20.0)
  {
    var w := SmoothWorld(dir, results, source);
    var o := seq(results, _ => Downloaded);
    assert w.search(singer) == Results(o);
    var videos := Downloads(dir, o, 11);
    DownloadsAllSucceed(dir, o, 11);
    var audio := Converted(dir, videos, w.converts);
    ConvertedAllSucceed(dir, videos, w.converts);
    var clips := CutClips(dir, audio, 20, w.trim);
    CutClipsAllSucceed(dir, audio, 20, w.trim);
    assert clips[0] in clips;
  }

  /** Clips that all last `s` seconds add up to `s` times their number. */
  lemma {:induction false} UniformTotal(clips: seq<Clip>, s: real)
    requires forall k :: 0 <= k < |clips| ==> clips[k].seconds == s
    ensures TotalSeconds(clips) == |clips| as real * s
  {
    if clips != [] {
      UniformTotal(clips[..|clips| - 1], s);
    }
  }

  /** The same run from the command line exits with status 0, enters all four
      stages and calls `rmtree` once, although that call fails. The mashup
      lasts 220 seconds. */
  lemma ExampleRun(dir: string, results: nat, source: real)
    requires results >= 11 && source >= 20.0
    ensures var argv := ["102303119.py", "Sharry Maan", "11", "20", "out.mp3"];
      var w := SmoothWorld(dir, results, source);
      var m := ExpectedMashup(argv, w);
      && ExitCode(ExpectedFault(argv, w)) == 0
      && ExpectedTrace(argv, w) == [MakeTempDir] + StageEvents + [RemoveTempDir]
      && |m| == 11
      && (forall k :: 0 <= k < 11 ==> m[k] == Clip(MediaFile(CutPath(dir, k), k), 20.0))
      && TotalSeconds(m) == 220.0
  {
    ExampleArgsAccepted();
    SmoothPipeline(dir, results, source, "Sharry Maan", "out.mp3");
    assert StageEvents[..4] == StageEvents;
    var argv := ["102303119.py", "Sharry Maan", "11", "20", "out.mp3"];
    UniformTotal(ExpectedMashup(argv, SmoothWorld(dir, results, source)), 20.0);
  }
}

=== FILE: pytext.dfy ===
/** The pieces of Python's string handling the validator relies on:
    `str.isspace`, `str.strip()`, `str.endswith`, and `int()` applied to a
    string (base 10), together with decimal rendering of integers as
    f-strings do it. */
module PyText {
  import opened Common

  /** Python's `str.isspace()`. */
  predicate IsSpace(c: char) {
    ('\t' <= c <= '\r') || ('\U{1c}' <= c <= ' ') || c == '\U{85}' || c == '\U{a0}'
    || c == '\U{1680}' || ('\U{2000}' <= c <= '\U{200a}') || c == '\U{2028}' || c == '\U{2029}'
    || c == '\U{202f}' || c == '\U{205f}' || c == '\U{3000}'
  }

  /** The two whitespace sets in play. `str.strip()` removes every
      `isspace` character. `int()` first turns each non-ASCII `isspace`
      character into a space and then skips only the ASCII `\t \n \v \f \r`
      and space, so the four separators U+001C to U+001F, which `isspace`
      accepts, are not whitespace to `int()`. */
  datatype Spaces = StripSpaces | IntSpaces

  predicate InSpaces(sp: Spaces, c: char) {
    IsSpace(c) && (sp == IntSpaces ==> !('\U{1c}' <= c <= '\U{1f}'))
  }

  /** Every character of `s` is whitespace (this includes the empty string). */
  predicate Blank(sp: Spaces, s: string) {
    forall i :: 0 <= i < |s| ==> InSpaces(sp, s[i])
  }

  /** `s` with its leading whitespace removed. */
  function TrimStart(sp: Spaces, s: string): string {
    if s != [] && InSpaces(sp, s[0]) then TrimStart(sp, s[1..]) else s
  }

  /** `s` with its trailing whitespace removed. */
  function TrimEnd(sp: Spaces, s: string): string {
    if s != [] && InSpaces(sp, s[|s| - 1]) then TrimEnd(sp, s[..|s| - 1]) else s
  }

  /** `s` with whitespace removed on both sides. */
  function Trim(sp: Spaces, s: string): string {
    TrimEnd(sp, TrimStart(sp, s))
  }

  /** Python's `s.strip()` with no argument. */
  function Strip(s: string): string {
    Trim(StripSpaces, s)
  }

  /** `TrimStart` removes a blank prefix, and exactly the longest one. */
  lemma {:induction false} TrimStartShape(sp: Spaces, s: string)
    ensures |TrimStart(sp, s)| <= |s| && TrimStart(sp, s) == s[|s| - |TrimStart(sp, s)|..]
    ensures TrimStart(sp, s) != [] ==> !InSpaces(sp, TrimStart(sp, s)[0])
    ensures Blank(sp, s[..|s| - |TrimStart(sp, s)|])
  {
    if s != [] && InSpaces(sp, s[0]) {
      TrimStartShape(sp, s[1..]);
      var k := |s| - |TrimStart(sp, s)|;
      assert s[1..][k - 1..] == s[k..];
      assert s[..k] == [s[0]] + s[1..][..k - 1];
    }
  }

  /** `TrimEnd` removes a blank suffix, and exactly the longest one. */
  lemma {:induction false} TrimEndShape(sp: Spaces, s: string)
    ensures |TrimEnd(sp, s)| <= |s| && TrimEnd(sp, s) == s[..|TrimEnd(sp, s)|]
    ensures TrimEnd(sp, s) != [] ==> !InSpaces(sp, TrimEnd(sp, s)[|TrimEnd(sp, s)| - 1])
    ensures Blank(sp, s[|TrimEnd(sp, s)|..])
  {
    if s != [] && InSpaces(sp, s[|s| - 1]) {
      var init := s[..|s| - 1];
      TrimEndShape(sp, init);
      var k := |TrimEnd(sp, s)|;
      assert init[..k] == s[..k];
      assert s[k..] == init[k..] + [s[|s| - 1]];
    }
  }

  /** Nothing is left of a blank string. */
  lemma {:induction false} TrimStartBlank(sp: Spaces, s: string)
    requires Blank(sp, s)
    ensures TrimStart(sp, s) == []
  {
    if s != [] {
      TrimStartBlank(sp, s[1..]);
    }
  }

  /** Trimming leaves nothing exactly of the blank strings; for `strip()`
      this is the test `not s or not s.strip()`. */
  lemma TrimEmptyIffBlank(sp: Spaces, s: string)
    ensures Trim(sp, s) == [] <==> Blank(sp, s)
  {
    var t := TrimStart(sp, s);
    TrimStartShape(sp, s);
    TrimEndShape(sp, t);
    assert s == s[..|s| - |t|] + t;
    if Trim(sp, s) == [] {
      assert t[|TrimEnd(sp, t)|..] == t;
    }
    if Blank(sp, s) {
      TrimStartBlank(sp, s);
    }
  }

  /** A string that neither starts nor ends with whitespace is its own trim. */
  lemma TrimNoop(sp: Spaces, s: string)
    requires s != [] && !InSpaces(sp, s[0]) && !InSpaces(sp, s[|s| - 1])
    ensures Trim(sp, s) == s
  {
    assert TrimStart(sp, s) == s;
  }

  /** Python's `s.endswith(suffix)`. */
  predicate EndsWith(s: string, suffix: string) {
    |suffix| <= |s| && s[|s| - |suffix|..] == suffix
  }

  predicate IsDigit(c: char) {
    '0' <= c <= '9'
  }

  function DigitValue(c: char): nat
    requires IsDigit(c)
  {
    c as int - '0' as int
  }

  function DigitChar(d: nat): (c: char)
    requires d < 10
    ensures IsDigit(c) && DigitValue(c) == d
  {
    ('0' as int + d) as char
  }

  /** The body of an integer literal as `int()` accepts it: ASCII digits,
      where a single underscore may stand between two digits. Read from the
      right: a digit, preceded by nothing, by a digit run, or by `_` and a
      digit run. */
  predicate IsDigitRun(s: string) {
    |s| > 0 && IsDigit(s[|s| - 1]) &&
    (|s| == 1 || IsDigitRun(s[..|s| - 1]) || (s[|s| - 2] == '_' && IsDigitRun(s[..|s| - 2])))
  }

  /** A non-empty string of digits is a digit run. */
  lemma {:induction false} AllDigitsIsRun(s: string)
    requires |s| > 0 && forall i :: 0 <= i < |s| ==> IsDigit(s[i])
    ensures IsDigitRun(s)
  {
    if |s| > 1 {
      AllDigitsIsRun(s[..|s| - 1]);
    }
  }

  /** The decimal value of the digits of `s`, underscores ignored. */
  function DigitRunValue(s: string): nat {
    if s == [] then 0
    else if IsDigit(s[|s| - 1]) then 10 * DigitRunValue(s[..|s| - 1]) + DigitValue(s[|s| - 1])
    else DigitRunValue(s[..|s| - 1])
  }

  /** `t` is written like an integer literal of value `v`: a sign or a
      digit, then digits and underscores, ending in a digit, and a minus sign
      in front when `v` is negative. */
  predicate LooksLike(t: string, v: int) {
    && |t| > 0 && (IsDigit(t[0]) || t[0] == '+' || t[0] == '-') && IsDigit(t[|t| - 1])
    && (forall i :: 0 < i < |t| ==> IsDigit(t[i]) || t[i] == '_')
    && (v < 0 ==> t[0] == '-')
  }

  /** Underscores do not count towards a literal's value. */
  lemma {:induction false} DigitRunValueSkipsUnderscore(a: string, b: string)
    ensures DigitRunValue(a + "_" + b) == DigitRunValue(a + b)
  {
    if b == [] {
      assert a + "_" + b == a + "_";
      assert (a + "_")[..|a|] == a;
      assert a + b == a;
    } else {
      var init := b[..|b| - 1];
      var s, t := a + "_" + b, a + b;
      assert s[..|s| - 1] == a + "_" + init;
      assert t[..|t| - 1] == a + init;
      assert s[|s| - 1] == t[|t| - 1] == b[|b| - 1];
      DigitRunValueSkipsUnderscore(a, init);
    }
  }

  /** Two digit runs joined by a single underscore make a digit run, of the
      value the two runs have written without it. */
  lemma {:induction false} DigitRunJoin(a: string, b: string)
    requires IsDigitRun(a) && IsDigitRun(b)
    ensures IsDigitRun(a + "_" + b)
    ensures DigitRunValue(a + "_" + b) == DigitRunValue(a + b)
  {
    DigitRunValueSkipsUnderscore(a, b);
    var s := a + "_" + b;
    if |b| == 1 {
      assert s[..|s| - 2] == a && s[|s| - 2] == '_';
    } else if IsDigitRun(b[..|b| - 1]) {
      DigitRunJoin(a, b[..|b| - 1]);
      assert s[..|s| - 1] == a + "_" + b[..|b| - 1];
    } else {
      DigitRunJoin(a, b[..|b| - 2]);
      assert s[..|s| - 2] == a + "_" + b[..|b| - 2];
      assert s[|s| - 2] == b[|b| - 2];
    }
  }

  /** Python's `int(s)` on a string: surrounding whitespace (the `IntSpaces`
      set) is dropped, then an optional sign and a digit run must make up the
      rest; anything else is the `ValueError` branch, here `None`. Whatever
      is accepted is, once trimmed, written like a literal of that value; a
      blank string is refused. */
  function ParseInt(s: string): (r: Option<int>)
    ensures r.Some? ==> LooksLike(Trim(IntSpaces, s), r.value)
    ensures Blank(IntSpaces, s) ==> r == None
  {
    var t := Trim(IntSpaces, s);
    TrimEmptyIffBlank(IntSpaces, s);
    ParseStrippedShape(t);
    ParseStripped(t)
  }

  /** `int()` on a string that has already been stripped. */
  function ParseStripped(t: string): Option<int> {
    if t == [] then None
    else if t[0] == '+' || t[0] == '-' then
      if IsDigitRun(t[1..]) then
        var v: int := DigitRunValue(t[1..]);
        Some(if t[0] == '-' then -v else v)
      else None
    else if IsDigitRun(t) then Some(DigitRunValue(t))
    else None
  }

  /** A digit run starts and ends with a digit and holds nothing but digits
      and underscores. */
  lemma {:induction false} DigitRunChars(s: string)
    requires IsDigitRun(s)
    ensures IsDigit(s[0]) && IsDigit(s[|s| - 1])
    ensures forall i :: 0 <= i < |s| ==> IsDigit(s[i]) || s[i] == '_'
  {
    if |s| > 1 {
      if IsDigitRun(s[..|s| - 1]) {
        DigitRunChars(s[..|s| - 1]);
        assert forall i :: 0 <= i < |s| - 1 ==> s[i] == s[..|s| - 1][i];
      } else {
        DigitRunChars(s[..|s| - 2]);
        assert forall i :: 0 <= i < |s| - 2 ==> s[i] == s[..|s| - 2][i];
      }
    }
  }

  /** What `ParseStripped` accepts: a sign or digit, then digits and
      underscores, ending in a digit; negative only after a minus sign. */
  lemma ParseStrippedShape(t: string)
    ensures ParseStripped(t).Some? ==> LooksLike(t, ParseStripped(t).value)
  {
    if ParseStripped(t).Some? {
      if t[0] == '+' || t[0] == '-' {
        var u := t[1..];
        DigitRunChars(u);
        assert forall i :: 0 < i < |t| ==> t[i] == u[i - 1];
      } else {
        DigitRunChars(t);
      }
    }
  }

  /** The decimal digits of `n`, as `f"{n}"` renders a non-negative int. */
  function NatToString(n: nat): (r: string)
    ensures |r| > 0
    ensures forall i :: 0 <= i < |r| ==> IsDigit(r[i])
  {
    if n < 10 then [DigitChar(n)] else NatToString(n / 10) + [DigitChar(n % 10)]
  }

  /** `f"{n}"` / `str(n)` for any int. */
  function IntToString(n: int): string {
    if n < 0 then "-" + NatToString(-n) else NatToString(n)
  }

  lemma {:induction false} NatToStringValue(n: nat)
    ensures DigitRunValue(NatToString(n)) == n
  {
    var s := NatToString(n);
    if n >= 10 {
      assert s[..|s| - 1] == NatToString(n / 10);
      NatToStringValue(n / 10);
    } else {
      assert s[..|s| - 1] == [];
    }
  }

  /** Distinct numbers render to distinct decimal strings. */
  lemma NatToStringInjective(a: nat, b: nat)
    ensures NatToString(a) == NatToString(b) ==> a == b
  {
    NatToStringValue(a);
    NatToStringValue(b);
  }

  /** Digits and signs are not whitespace. */
  lemma NumberCharNotSpace(c: char)
    requires IsDigit(c) || c == '+' || c == '-'
    ensures !IsSpace(c)
  {
  }

  /** Stripped decimal digits, with or without a minus sign, parse to their value. */
  lemma ParseStrippedDigits(d: string)
    requires |d| > 0 && forall i :: 0 <= i < |d| ==> IsDigit(d[i])
    ensures ParseStripped(d) == Some(DigitRunValue(d))
    ensures ParseStripped("+" + d) == Some(DigitRunValue(d))
    ensures ParseStripped("-" + d) == Some(-(DigitRunValue(d) as int))
  {
    AllDigitsIsRun(d);
    assert ParseStripped(d) == Some(DigitRunValue(d)) by {
      assert d[0] != '+' && d[0] != '-';
    }
    var plus, minus := "+" + d, "-" + d;
    assert ParseStripped(plus) == Some(DigitRunValue(d)) by {
      assert plus[0] == '+' && plus[1..] == d;
    }
    assert ParseStripped(minus) == Some(-(DigitRunValue(d) as int)) by {
      assert minus[0] == '-' && minus[1..] == d;
    }
  }

  /** `int(str(n)) == n` for every int. */
  lemma ParseIntRoundTrip(n: int)
    ensures ParseInt(IntToString(n)) == Some(n)
  {
    var m: nat := if n < 0 then -n else n;
    var d := NatToString(m);
    NatToStringValue(m);
    ParseStrippedDigits(d);
    var s := IntToString(n);
    NumberCharNotSpace(s[0]);
    assert s[|s| - 1] == d[|d| - 1];
    NumberCharNotSpace(s[|s| - 1]);
    TrimNoop(IntSpaces, s);
  }

  /** Dropping leading blanks does not care about blanks already dropped. */
  lemma {:induction false} TrimStartBlankPrefix(sp: Spaces, pre: string, x: string)
    requires Blank(sp, pre)
    ensures TrimStart(sp, pre + x) == TrimStart(sp, x)
  {
    if pre == [] {
      assert pre + x == x;
    } else {
      assert (pre + x)[0] == pre[0];
      assert (pre + x)[1..] == pre[1..] + x;
      TrimStartBlankPrefix(sp, pre[1..], x);
    }
  }

  /** Dropping trailing blanks does not care about blanks already dropped. */
  lemma {:induction false} TrimEndBlankSuffix(sp: Spaces, x: string, post: string)
    requires Blank(sp, post)
    ensures TrimEnd(sp, x + post) == TrimEnd(sp, x)
  {
    if post == [] {
      assert x + post == x;
    } else {
      var p := post[..|post| - 1];
      assert (x + post)[|x + post| - 1] == post[|post| - 1];
      assert (x + post)[..|x + post| - 1] == x + p;
      TrimEndBlankSuffix(sp, x, p);
    }
  }

  /** Leading whitespace of a concatenation. */
  lemma {:induction false} TrimStartAppend(sp: Spaces, x: string, y: string)
    ensures TrimStart(sp, x) != [] ==> TrimStart(sp, x + y) == TrimStart(sp, x) + y
    ensures TrimStart(sp, x) == [] ==> TrimStart(sp, x + y) == TrimStart(sp, y)
  {
    if x == [] {
      assert x + y == y;
    } else {
      assert (x + y)[0] == x[0];
      if InSpaces(sp, x[0]) {
        assert (x + y)[1..] == x[1..] + y;
        TrimStartAppend(sp, x[1..], y);
      }
    }
  }

  /** Blanks on either side make no difference to trimming. */
  lemma TrimIgnoresPadding(sp: Spaces, pre: string, s: string, post: string)
    requires Blank(sp, pre) && Blank(sp, post)
    ensures Trim(sp, pre + s + post) == Trim(sp, s)
  {
    assert pre + s + post == pre + (s + post);
    TrimStartBlankPrefix(sp, pre, s + post);
    TrimStartAppend(sp, s, post);
    if TrimStart(sp, s) != [] {
      TrimEndBlankSuffix(sp, TrimStart(sp, s), post);
    } else {
      TrimStartBlankPrefix(sp, post, []);
      assert post + [] == post;
    }
  }

  /** `int()` ignores its own whitespace around the number. */
  lemma ParseIntIgnoresPadding(pre: string, s: string, post: string)
    requires Blank(IntSpaces, pre) && Blank(IntSpaces, post)
    ensures ParseInt(pre + s + post) == ParseInt(s)
  {
    TrimIgnoresPadding(IntSpaces, pre, s, post);
  }

  /** U+001C is whitespace to `strip()` but not to `int()`: `"\x1c11".strip()`
      is `"11"`, yet `int("\x1c11")` raises `ValueError`. */
  lemma ParseIntSeparatorExample()
    ensures Strip("\U{1c}11") == "11"
    ensures ParseInt("\U{1c}11") == None
  {
    var s := "\U{1c}11";
    assert s[1..] == "11";
    TrimNoop(StripSpaces, "11");
    assert TrimStart(IntSpaces, s) == s;
    TrimNoop(IntSpaces, s);
    assert !IsDigitRun(s) by {
      assert s[..2] == "\U{1c}1";
      assert s[..2][..1] == "\U{1c}";
    }
  }

  /** `int()` accepts an explicit plus sign. */
  lemma ParseIntSignExample()
    ensures ParseInt("+20") == Some(20)
  {
    ParseStrippedDigits("20");
    assert DigitRunValue("20") == 20 by {
      assert "20"[..1] == "2";
      assert "2"[..0] == [];
    }
    assert "+" + "20" == "+20";
    TrimNoop(IntSpaces, "+20");
  }

  /** `int()` accepts single underscores between digits. */
  lemma ParseIntUnderscoreExample()
    ensures ParseInt("1_000") == Some(1000)
  {
    assert IsDigitRun("1_000") by {
      assert "1_000"[..4] == "1_00";
      assert "1_00"[..3] == "1_0";
      assert "1_0"[..1] == "1";
    }
    assert DigitRunValue("1_000") == 1000 by {
      assert "1_000"[..4] == "1_00";
      assert "1_00"[..3] == "1_0";
      assert "1_0"[..2] == "1_";
      assert "1_"[..1] == "1";
      assert "1"[..0] == [];
    }
    assert ParseStripped("1_000") == Some(1000);
    TrimNoop(IntSpaces, "1_000");
  }

  /** `int()` accepts leading zeros. */
  lemma ParseIntLeadingZeroExample()
    ensures ParseInt("007") == Some(7)
  {
    assert IsDigitRun("007");
    assert DigitRunValue("007") == 7 by {
      assert "007"[..2] == "00";
      assert "00"[..1] == "0";
      assert "0"[..0] == [];
    }
    assert ParseStripped("007") == Some(7);
    TrimNoop(IntSpaces, "007");
  }

  /** An underscore that does not stand between two digits is refused. */
  lemma ParseIntMisplacedUnderscoreExample()
    ensures ParseInt("1__0") == None
  {
    assert !IsDigitRun("1__0") by {
      assert "1__0"[..3] == "1__";
      assert "1__0"[..2] == "1_";
    }
    assert ParseStripped("1__0") == None;
    TrimNoop(IntSpaces, "1__0");
  }

  /** A decimal point is refused. */
  lemma ParseIntDecimalPointExample()
    ensures ParseInt("11.0") == None
  {
    assert !IsDigitRun("11.0") by {
      assert "11.0"[..3] == "11.";
      assert "11.0"[..2] == "11";
    }
    assert ParseStripped("11.0") == None;
    TrimNoop(IntSpaces, "11.0");
  }

  /** A blank string is refused. */
  lemma ParseIntBlankExample()
    ensures ParseInt("  ") == None
  {
    TrimEmptyIffBlank(IntSpaces, "  ");
  }
}

=== FILE: sanitize.dfy ===
/** `sanitize_filename`: deletes every character of the class
    `[<>:"/\\|?*]` from a file name and keeps all others in order. */
module Sanitize {

  /** The nine characters the regular expression's class matches. */
  predicate IsUnsafe(c: char) {
    c == '<' || c == '>' || c == ':' || c == '"' || c == '/' || c == '\\'
    || c == '|' || c == '?' || c == '*'
  }

  /** No character of `s` is unsafe. */
  predicate IsSafe(s: string) {
    forall i :: 0 <= i < |s| ==> !IsUnsafe(s[i])
  }

  /** `re.sub(r'[<>:"/\\|?*]', '', filename)`. */
  function SanitizeFilename(s: string): (r: string)
    ensures IsSafe(r)
    ensures |r| <= |s|
  {
    if s == [] then []
    else (if IsUnsafe(s[0]) then [] else [s[0]]) + SanitizeFilename(s[1..])
  }

  /** Sanitizing works character by character: a concatenation is
      sanitized piecewise, so the kept characters stay in their order. */
  lemma {:induction false} SanitizeAppend(a: string, b: string)
    ensures SanitizeFilename(a + b) == SanitizeFilename(a) + SanitizeFilename(b)
  {
    if a == [] {
      assert a + b == b;
    } else {
      var kept := if IsUnsafe(a[0]) then [] else [a[0]];
      assert (a + b)[0] == a[0];
      assert (a + b)[1..] == a[1..] + b;
      assert SanitizeFilename(a + b) == kept + SanitizeFilename(a[1..] + b);
      SanitizeAppend(a[1..], b);
      assert SanitizeFilename(a) == kept + SanitizeFilename(a[1..]);
    }
  }

  /** A single character is deleted exactly when it is unsafe. */
  lemma SanitizeChar(c: char)
    ensures SanitizeFilename([c]) == if IsUnsafe(c) then [] else [c]
  {
    assert [c][1..] == [];
  }

  /** A name with nothing to delete comes back unchanged. */
  lemma {:induction false} SanitizeKeepsSafe(s: string)
    requires IsSafe(s)
    ensures SanitizeFilename(s) == s
  {
    if s != [] {
      SanitizeKeepsSafe(s[1..]);
    }
  }

  /** Sanitizing twice is sanitizing once. */
  lemma SanitizeIdempotent(s: string)
    ensures SanitizeFilename(SanitizeFilename(s)) == SanitizeFilename(s)
  {
    SanitizeKeepsSafe(SanitizeFilename(s));
  }

  /** Every unsafe character disappears and every other character keeps
      its number of occurrences. */
  lemma {:induction false} SanitizeCounts(s: string)
    ensures forall c :: multiset(SanitizeFilename(s))[c] == if IsUnsafe(c) then 0 else multiset(s)[c]
  {
    if s != [] {
      SanitizeCounts(s[1..]);
      assert s == [s[0]] + s[1..];
      assert multiset(s) == multiset([s[0]]) + multiset(s[1..]);
    }
  }

  /** Read left to right, the result grows by one character at each safe
      input character, which it keeps, and not at all at an unsafe one: the
      output is the input with exactly the unsafe characters taken out, the
      rest in their order. */
  lemma SanitizePrefixStep(s: string, i: nat)
    requires i < |s|
    ensures SanitizeFilename(s[..i + 1])
         == SanitizeFilename(s[..i]) + (if IsUnsafe(s[i]) then [] else [s[i]])
  {
    assert s[..i + 1] == s[..i] + [s[i]];
    SanitizeAppend(s[..i], [s[i]]);
    SanitizeChar(s[i]);
  }
}

=== FILE: stages.dfy ===
/** The three best-effort stages of the pipeline: `download_videos`,
    `convert_to_audio` and `cut_audio`. Each external call (the video search,
    the stream download, the audio decoder and encoder) is replaced by a given
    outcome; what is modelled is which items survive each stage, in which
    order, and under which file name. */
module Stages {
  import opened Common
  import opened PyText

  /** What happened to one search result inside the download loop's `try`. */
  datatype FetchOutcome =
    | Downloaded      // an audio-only stream existed and was saved
    | NoAudioStream   // `streams.filter(only_audio=True).first()` was None
    | FetchRaised     // an exception inside the per-result `try`

  /** What `Search(singer_name)` and its results gave: an exception (wrapped
      and re-raised by `download_videos`), or the results in ranking order. */
  datatype SearchResult = SearchRaised | Results(outcomes: seq<FetchOutcome>)

  /** A file in the scratch directory. `origin` is the index of the search
      result whose audio it holds; the program does not keep it, the model
      does so that order can be stated. */
  datatype MediaFile = MediaFile(path: string, origin: nat)

  /** What `cut_audio` met for one input: the source clip's length in seconds
      (`audio.duration`), or an exception. */
  datatype TrimOutcome = Trimmed(sourceSeconds: real) | TrimRaised

  /** A trimmed clip and its length in seconds. */
  datatype Clip = Clip(file: MediaFile, seconds: real)

  // File names.

  /** `os.path.join(dir, name)` for a directory without a trailing separator. */
  function JoinPath(dir: string, name: string): string {
    dir + "/" + name
  }

  /** `f"{stem}{k}{ext}"`. */
  function NumberedName(stem: string, k: nat, ext: string): string {
    stem + NatToString(k) + ext
  }

  function VideoPath(dir: string, k: nat): string {
    JoinPath(dir, NumberedName("video_", k, ".mp4"))
  }

  function AudioPath(dir: string, i: nat): string {
    JoinPath(dir, NumberedName("audio_", i, ".mp3"))
  }

  function CutPath(dir: string, i: nat): string {
    JoinPath(dir, NumberedName("cut_", i, ".mp3"))
  }

  /** Two paths in the same directory are equal only for equal names. */
  lemma JoinPathInjective(dir: string, x: string, y: string)
    requires JoinPath(dir, x) == JoinPath(dir, y)
    ensures x == y
  {
    assert x == JoinPath(dir, x)[|dir| + 1..];
    assert y == JoinPath(dir, y)[|dir| + 1..];
  }

  /** Names built from a fixed stem and extension around a number differ for
      different numbers. */
  lemma NumberedNameInjective(stem: string, ext: string, a: nat, b: nat)
    requires NumberedName(stem, a, ext) == NumberedName(stem, b, ext)
    ensures a == b
  {
    var x, y := NatToString(a), NatToString(b);
    assert |x| == |y|;
    assert x == NumberedName(stem, a, ext)[|stem|..|stem| + |x|];
    assert y == NumberedName(stem, b, ext)[|stem|..|stem| + |y|];
    NatToStringInjective(a, b);
  }

  /** Different indices give different file names, so no stage overwrites
      a file it wrote itself. */
  lemma PathsInjective(dir: string, a: nat, b: nat)
    ensures VideoPath(dir, a) == VideoPath(dir, b) ==> a == b
    ensures AudioPath(dir, a) == AudioPath(dir, b) ==> a == b
    ensures CutPath(dir, a) == CutPath(dir, b) ==> a == b
  {
    if VideoPath(dir, a) == VideoPath(dir, b) {
      JoinPathInjective(dir, NumberedName("video_", a, ".mp4"), NumberedName("video_", b, ".mp4"));
      NumberedNameInjective("video_", ".mp4", a, b);
    }
    if AudioPath(dir, a) == AudioPath(dir, b) {
      JoinPathInjective(dir, NumberedName("audio_", a, ".mp3"), NumberedName("audio_", b, ".mp3"));
      NumberedNameInjective("audio_", ".mp3", a, b);
    }
    if CutPath(dir, a) == CutPath(dir, b) {
      JoinPathInjective(dir, NumberedName("cut_", a, ".mp3"), NumberedName("cut_", b, ".mp3"));
      NumberedNameInjective("cut_", ".mp3", a, b);
    }
  }

  // Keeping the items that succeeded.

  /** The positions of `xs` whose item satisfies `ok`, in increasing order. */
  function KeptIndices<A>(xs: seq<A>, ok: A -> bool): (r: seq<nat>)
    ensures |r| <= |xs|
    ensures forall k :: 0 <= k < |r| ==> r[k] < |xs| && ok(xs[r[k]])
    ensures forall k, l :: 0 <= k < l < |r| ==> r[k] < r[l]
  {
    if xs == [] then []
    else KeptIndices(xs[..|xs| - 1], ok) + (if ok(xs[|xs| - 1]) then [|xs| - 1] else [])
  }

  /** Every position that satisfies `ok` is kept. */
  lemma {:induction false} KeptIndicesComplete<A>(xs: seq<A>, ok: A -> bool, i: nat)
    requires i < |xs| && ok(xs[i])
    ensures i in KeptIndices(xs, ok)
  {
    var init := xs[..|xs| - 1];
    if i < |xs| - 1 {
      assert init[i] == xs[i];
      KeptIndicesComplete(init, ok, i);
    }
  }

  /** Nothing is kept exactly when no item satisfies `ok`. */
  lemma KeptIndicesEmpty<A>(xs: seq<A>, ok: A -> bool)
    ensures KeptIndices(xs, ok) == [] <==> forall i :: 0 <= i < |xs| ==> !ok(xs[i])
  {
    if exists i :: 0 <= i < |xs| && ok(xs[i]) {
      var i :| 0 <= i < |xs| && ok(xs[i]);
      KeptIndicesComplete(xs, ok, i);
    }
  }

  /** Looking at one more item adds its position if it is kept. */
  lemma KeptIndicesStep<A>(xs: seq<A>, ok: A -> bool, i: nat)
    requires i < |xs|
    ensures KeptIndices(xs[..i + 1], ok) == KeptIndices(xs[..i], ok) + (if ok(xs[i]) then [i] else [])
  {
    assert xs[..i + 1][..i] == xs[..i];
  }

  /** What is kept of a prefix is a prefix of what is kept of the whole. */
  lemma {:induction false} KeptIndicesPrefix<A>(xs: seq<A>, ok: A -> bool, j: nat)
    requires j <= |xs|
    ensures KeptIndices(xs[..j], ok) <= KeptIndices(xs, ok)
    decreases |xs|
  {
    if j == |xs| {
      assert xs[..j] == xs;
    } else {
      var init := xs[..|xs| - 1];
      assert init[..j] == xs[..j];
      KeptIndicesPrefix(init, ok, j);
    }
  }

  /** When every item is kept, the positions are 0, 1, ..., |xs| - 1. */
  lemma {:induction false} KeptIndicesAll<A>(xs: seq<A>, ok: A -> bool)
    requires forall i :: 0 <= i < |xs| ==> ok(xs[i])
    ensures |KeptIndices(xs, ok)| == |xs|
    ensures forall k :: 0 <= k < |xs| ==> KeptIndices(xs, ok)[k] == k
  {
    if xs != [] {
      var init := xs[..|xs| - 1];
      assert forall i :: 0 <= i < |init| ==> init[i] == xs[i];
      KeptIndicesAll(init, ok);
    }
  }

  // Download.

  predicate Fetched(o: FetchOutcome) {
    o.Downloaded?
  }

  /** How many files the download loop keeps: `num_videos`, or fewer when the
      results run out. */
  function DownloadCount(successes: nat, numVideos: int): nat {
    if numVideos <= 0 then 0 else if numVideos < successes then numVideos else successes
  }

  /** The files `download_videos` returns for the given search results: the
      first `num_videos` successful results in ranking order, the k-th saved
      as `video_{k}.mp4`. */
  function Downloads(dir: string, outcomes: seq<FetchOutcome>, numVideos: int): seq<MediaFile> {
    var picks := KeptIndices(outcomes, Fetched);
    var m := DownloadCount(|picks|, numVideos);
    seq(m, k requires 0 <= k < m => MediaFile(VideoPath(dir, k), picks[k]))
  }

  /** A result that downloads while fewer than `num_videos` files exist is
      appended, named after the current count. */
  lemma DownloadsTake(dir: string, o: seq<FetchOutcome>, j: nat, n: int)
    requires j < |o| && Fetched(o[j]) && |KeptIndices(o[..j], Fetched)| < n
    ensures |KeptIndices(o[..j + 1], Fetched)| == |KeptIndices(o[..j], Fetched)| + 1
    ensures Downloads(dir, o[..j + 1], n)
         == Downloads(dir, o[..j], n) + [MediaFile(VideoPath(dir, |KeptIndices(o[..j], Fetched)|), j)]
  {
    KeptIndicesStep(o, Fetched, j);
  }

  /** A result that does not download changes nothing. */
  lemma DownloadsSkip(dir: string, o: seq<FetchOutcome>, j: nat, n: int)
    requires j < |o| && !Fetched(o[j])
    ensures KeptIndices(o[..j + 1], Fetched) == KeptIndices(o[..j], Fetched)
    ensures Downloads(dir, o[..j + 1], n) == Downloads(dir, o[..j], n)
  {
    KeptIndicesStep(o, Fetched, j);
  }

  lemma DownloadsSettled(dir: string, o: seq<FetchOutcome>, j: nat, n: int)
    requires j <= |o| && |KeptIndices(o[..j], Fetched)| >= n
    ensures Downloads(dir, o, n) == Downloads(dir, o[..j], n)
  {
    KeptIndicesPrefix(o, Fetched, j);
  }

  /** The download loop: walks the results, stops once `count` reaches
      `num_videos`, skips results without audio or that raise, and names each
      saved file after the success counter. `warned` is the under-fulfilment
      warning. */
  method DownloadVideos(dir: string, search: SearchResult, numVideos: int)
    returns (files: Option<seq<MediaFile>>, warned: bool)
    ensures search.SearchRaised? ==> files.None? && !warned
    ensures search.Results? ==> files == Some(Downloads(dir, search.outcomes, numVideos))
    ensures search.Results? ==> (warned <==> |files.value| < numVideos)
  {
    if search.SearchRaised? {
      return None, false;
    }
    var outcomes := search.outcomes;
    var downloaded: seq<MediaFile> := [];
    var count := 0;
    var j := 0;
    while j < |outcomes|
      invariant 0 <= j <= |outcomes|
      invariant count == |downloaded| == |KeptIndices(outcomes[..j], Fetched)|
      invariant count <= numVideos || count == 0
      invariant downloaded == Downloads(dir, outcomes[..j], numVideos)
    {
      if count >= numVideos {
        DownloadsSettled(dir, outcomes, j, numVideos);
        break;
      }
      if outcomes[j] == Downloaded {
        DownloadsTake(dir, outcomes, j, numVideos);
        downloaded := downloaded + [MediaFile(VideoPath(dir, count), j)];
        count := count + 1;
      } else {
        DownloadsSkip(dir, outcomes, j, numVideos);
      }
      j := j + 1;
    }
    if j == |outcomes| {
      assert outcomes[..j] == outcomes;
    }
    warned := count < numVideos;
    files := Some(downloaded);
  }

  /** What the download stage returns: at most `num_videos` files, named
      `video_0.mp4`, `video_1.mp4`, ... without gaps, each from a result that
      downloaded, in ranking order. */
  lemma DownloadsShape(dir: string, o: seq<FetchOutcome>, n: int)
    ensures var r := Downloads(dir, o, n);
      && (n >= 0 ==> |r| <= n)
      && (forall k :: 0 <= k < |r| ==> r[k].path == VideoPath(dir, k))
      && (forall k :: 0 <= k < |r| ==> r[k].origin < |o| && Fetched(o[r[k].origin]))
      && (forall k, l :: 0 <= k < l < |r| ==> r[k].origin < r[l].origin)
  {
  }

  /** A failed result never stops the loop: a result that downloads while
      fewer than `num_videos` earlier ones did is kept, at the position its
      predecessors' count gives it. */
  lemma DownloadNeverAborts(dir: string, o: seq<FetchOutcome>, n: int, j: nat)
    requires j < |o| && Fetched(o[j]) && |KeptIndices(o[..j], Fetched)| < n
    ensures var c := |KeptIndices(o[..j], Fetched)|;
      c < |Downloads(dir, o, n)| && Downloads(dir, o, n)[c] == MediaFile(VideoPath(dir, c), j)
  {
    KeptIndicesStep(o, Fetched, j);
    KeptIndicesPrefix(o, Fetched, j + 1);
  }

  /** Fewer files than asked for means every result that could be downloaded
      was. */
  lemma ShortfallTakesEverySuccess(dir: string, o: seq<FetchOutcome>, n: int, j: nat)
    requires |Downloads(dir, o, n)| < n
    requires j < |o| && Fetched(o[j])
    ensures exists k :: 0 <= k < |Downloads(dir, o, n)| && Downloads(dir, o, n)[k].origin == j
  {
    KeptIndicesComplete(o, Fetched, j);
    var picks := KeptIndices(o, Fetched);
    var k :| 0 <= k < |picks| && picks[k] == j;
    assert Downloads(dir, o, n)[k].origin == j;
  }

  /** The stage yields nothing exactly when no result downloads (for a
      positive request). */
  lemma DownloadsEmpty(dir: string, o: seq<FetchOutcome>, n: int)
    requires n > 0
    ensures Downloads(dir, o, n) == [] <==> forall j :: 0 <= j < |o| ==> !Fetched(o[j])
  {
    KeptIndicesEmpty(o, Fetched);
  }

  /** When every result downloads, the first `num_videos` results are taken,
      the k-th saved as `video_{k}.mp4`. */
  lemma DownloadsAllSucceed(dir: string, o: seq<FetchOutcome>, n: int)
    requires forall j :: 0 <= j < |o| ==> Fetched(o[j])
    requires 0 <= n <= |o|
    ensures |Downloads(dir, o, n)| == n
    ensures forall k :: 0 <= k < n ==> Downloads(dir, o, n)[k] == MediaFile(VideoPath(dir, k), k)
  {
    KeptIndicesAll(o, Fetched);
  }

  // Convert.

  /** The files `convert_to_audio` returns: one per input that converted, in
      input order, named after the input's index `i` as `audio_{i}.mp3`. */
  function Converted(dir: string, files: seq<MediaFile>, converts: MediaFile -> bool): seq<MediaFile> {
    var kept := KeptIndices(files, converts);
    seq(|kept|, k requires 0 <= k < |kept| => MediaFile(AudioPath(dir, kept[k]), files[kept[k]].origin))
  }

  lemma ConvertedStep(dir: string, files: seq<MediaFile>, converts: MediaFile -> bool, i: nat)
    requires i < |files|
    ensures Converted(dir, files[..i + 1], converts)
         == Converted(dir, files[..i], converts)
            + (if converts(files[i]) then [MediaFile(AudioPath(dir, i), files[i].origin)] else [])
  {
    KeptIndicesStep(files, converts, i);
  }

  /** The conversion loop; a failing input is reported and skipped. */
  method ConvertToAudio(dir: string, videoFiles: seq<MediaFile>, converts: MediaFile -> bool)
    returns (audioFiles: seq<MediaFile>)
    ensures audioFiles == Converted(dir, videoFiles, converts)
  {
    audioFiles := [];
    var i := 0;
    while i < |videoFiles|
      invariant 0 <= i <= |videoFiles|
      invariant audioFiles == Converted(dir, videoFiles[..i], converts)
    {
      ConvertedStep(dir, videoFiles, converts, i);
      if converts(videoFiles[i]) {
        audioFiles := audioFiles + [MediaFile(AudioPath(dir, i), videoFiles[i].origin)];
      }
      i := i + 1;
    }
    assert videoFiles[..i] == videoFiles;
  }

  /** Conversion keeps exactly the inputs that converted, in order: the k-th output
      holds the audio of the k-th surviving input and is named after that
      input's index, so names may skip the indices of failed inputs. */
  lemma ConvertedShape(dir: string, files: seq<MediaFile>, converts: MediaFile -> bool)
    ensures var r := Converted(dir, files, converts);
      var kept := KeptIndices(files, converts);
      && |r| <= |files|
      && (forall k :: 0 <= k < |r| ==>
            kept[k] < |files| && converts(files[kept[k]])
            && r[k] == MediaFile(AudioPath(dir, kept[k]), files[kept[k]].origin))
      && (forall k, l :: 0 <= k < l < |r| ==> kept[k] < kept[l])
      && |r| == |kept|
      && (forall i :: 0 <= i < |files| && converts(files[i]) ==> i in kept)
  {
    forall i | 0 <= i < |files| && converts(files[i])
      ensures i in KeptIndices(files, converts)
    {
      KeptIndicesComplete(files, converts, i);
    }
  }

  /** The stage yields nothing exactly when no input converts. */
  lemma ConvertedEmpty(dir: string, files: seq<MediaFile>, converts: MediaFile -> bool)
    ensures Converted(dir, files, converts) == [] <==> forall i :: 0 <= i < |files| ==> !converts(files[i])
  {
    KeptIndicesEmpty(files, converts);
  }

  /** With no failure the names are `audio_0.mp3` ... without gaps. */
  lemma ConvertedAllSucceed(dir: string, files: seq<MediaFile>, converts: MediaFile -> bool)
    requires forall i :: 0 <= i < |files| ==> converts(files[i])
    ensures |Converted(dir, files, converts)| == |files|
    ensures forall k :: 0 <= k < |files| ==>
      Converted(dir, files, converts)[k] == MediaFile(AudioPath(dir, k), files[k].origin)
  {
    KeptIndicesAll(files, converts);
  }

  // Cut.

  /** The inputs `cut_audio` gets through. */
  function TrimSucceeds(trim: MediaFile -> TrimOutcome): MediaFile -> bool {
    f => trim(f).Trimmed?
  }

  /** The clips `cut_audio` returns: one per input that could be cut, in input
      order, named `cut_{i}.mp3` after the input's index, each as long as the
      shorter of the requested duration and the source. */
  function CutClips(dir: string, files: seq<MediaFile>, duration: int, trim: MediaFile -> TrimOutcome): seq<Clip> {
    var kept := KeptIndices(files, TrimSucceeds(trim));
    seq(|kept|, k requires 0 <= k < |kept| =>
      Clip(MediaFile(CutPath(dir, kept[k]), files[kept[k]].origin),
           MinReal(duration as real, trim(files[kept[k]]).sourceSeconds)))
  }

  lemma CutClipsStep(dir: string, files: seq<MediaFile>, duration: int, trim: MediaFile -> TrimOutcome, i: nat)
    requires i < |files|
    ensures CutClips(dir, files[..i + 1], duration, trim)
         == CutClips(dir, files[..i], duration, trim)
            + (if trim(files[i]).Trimmed?
               then [Clip(MediaFile(CutPath(dir, i), files[i].origin),
                          MinReal(duration as real, trim(files[i]).sourceSeconds))]
               else [])
  {
    KeptIndicesStep(files, TrimSucceeds(trim), i);
  }

  /** The trimming loop; a failing input is reported and skipped. */
  method CutAudio(dir: string, audioFiles: seq<MediaFile>, duration: int, trim: MediaFile -> TrimOutcome)
    returns (cutFiles: seq<Clip>)
    ensures cutFiles == CutClips(dir, audioFiles, duration, trim)
  {
    cutFiles := [];
    var i := 0;
    while i < |audioFiles|
      invariant 0 <= i <= |audioFiles|
      invariant cutFiles == CutClips(dir, audioFiles[..i], duration, trim)
    {
      CutClipsStep(dir, audioFiles, duration, trim, i);
      var outcome := trim(audioFiles[i]);
      if outcome.Trimmed? {
        var cutDuration := MinReal(duration as real, outcome.sourceSeconds);
        cutFiles := cutFiles + [Clip(MediaFile(CutPath(dir, i), audioFiles[i].origin), cutDuration)];
      }
      i := i + 1;
    }
    assert audioFiles[..i] == audioFiles;
  }

  /** Each clip lasts `min(duration, source length)`: a source no longer than
      the duration is kept whole, a longer one is cut to exactly the duration,
      and no clip exceeds either. Every input that can be cut gives one clip;
      clips keep input order and carry the input index in their name. */
  lemma CutClipsShape(dir: string, files: seq<MediaFile>, duration: int, trim: MediaFile -> TrimOutcome)
    ensures var r := CutClips(dir, files, duration, trim);
      var kept := KeptIndices(files, TrimSucceeds(trim));
      && |r| <= |files|
      && (forall k, l :: 0 <= k < l < |r| ==> kept[k] < kept[l])
      && (forall k :: 0 <= k < |r| ==>
           var f := files[kept[k]];
           && trim(f).Trimmed?
           && r[k].file == MediaFile(CutPath(dir, kept[k]), f.origin)
           && r[k].seconds <= duration as real
           && r[k].seconds <= trim(f).sourceSeconds
           && (trim(f).sourceSeconds <= duration as real ==> r[k].seconds == trim(f).sourceSeconds)
           && (trim(f).sourceSeconds >= duration as real ==> r[k].seconds == duration as real))
      && |r| == |kept|
      && (forall i :: 0 <= i < |files| && trim(files[i]).Trimmed? ==> i in kept)
  {
    forall i | 0 <= i < |files| && trim(files[i]).Trimmed?
      ensures i in KeptIndices(files, TrimSucceeds(trim))
    {
      KeptIndicesComplete(files, TrimSucceeds(trim), i);
    }
  }

  /** The stage yields nothing exactly when no input can be cut. */
  lemma CutClipsEmpty(dir: string, files: seq<MediaFile>, duration: int, trim: MediaFile -> TrimOutcome)
    ensures CutClips(dir, files, duration, trim) == [] <==> forall i :: 0 <= i < |files| ==> !trim(files[i]).Trimmed?
  {
    KeptIndicesEmpty(files, TrimSucceeds(trim));
  }

  // Where the surviving files come from.

  /** The files hold the audio of search results in ranking order. */
  predicate InRankOrder(files: seq<MediaFile>) {
    forall k, l :: 0 <= k < l < |files| ==> files[k].origin < files[l].origin
  }

  /** Every file holds the audio of a search result that downloaded. */
  predicate FromResults(files: seq<MediaFile>, outcomes: seq<FetchOutcome>) {
    forall k :: 0 <= k < |files| ==> files[k].origin < |outcomes| && Fetched(outcomes[files[k].origin])
  }

  /** The files of a clip sequence. */
  function ClipFiles(clips: seq<Clip>): seq<MediaFile> {
    seq(|clips|, k requires 0 <= k < |clips| => clips[k].file)
  }

  /** Downloaded files are in ranking order and come from successful results. */
  lemma DownloadsTraceable(dir: string, o: seq<FetchOutcome>, n: int)
    ensures InRankOrder(Downloads(dir, o, n)) && FromResults(Downloads(dir, o, n), o)
  {
    DownloadsShape(dir, o, n);
  }

  /** Conversion neither reorders files nor invents sources. */
  lemma ConvertedTraceable(dir: string, files: seq<MediaFile>, converts: MediaFile -> bool, o: seq<FetchOutcome>)
    ensures InRankOrder(files) ==> InRankOrder(Converted(dir, files, converts))
    ensures FromResults(files, o) ==> FromResults(Converted(dir, files, converts), o)
  {
    ConvertedShape(dir, files, converts);
  }

  /** Trimming neither reorders files nor invents sources. */
  lemma CutClipsTraceable(dir: string, files: seq<MediaFile>, duration: int, trim: MediaFile -> TrimOutcome,
                          o: seq<FetchOutcome>)
    ensures InRankOrder(files) ==> InRankOrder(ClipFiles(CutClips(dir, files, duration, trim)))
    ensures FromResults(files, o) ==> FromResults(ClipFiles(CutClips(dir, files, duration, trim)), o)
  {
    CutClipsShape(dir, files, duration, trim);
  }

  /** With no failure every input is cut, the names are `cut_0.mp3` ...
      without gaps. */
  lemma CutClipsAllSucceed(dir: string, files: seq<MediaFile>, duration: int, trim: MediaFile -> TrimOutcome)
    requires forall i :: 0 <= i < |files| ==> trim(files[i]).Trimmed?
    ensures |CutClips(dir, files, duration, trim)| == |files|
    ensures forall k :: 0 <= k < |files| ==>
      CutClips(dir, files, duration, trim)[k]
        == Clip(MediaFile(CutPath(dir, k), files[k].origin), MinReal(duration as real, trim(files[k]).sourceSeconds))
  {
    KeptIndicesAll(files, TrimSucceeds(trim));
  }

  /** Download names follow the success counter, conversion names the input
      index: when the first of two results fails, the survivor is `video_0`
      after download but `audio_1` after conversion. */
  lemma NamingContrast(dir: string, video: MediaFile, converts: MediaFile -> bool, broken: MediaFile)
    requires !converts(broken) && converts(video)
    ensures Downloads(dir, [NoAudioStream, Downloaded], 2) == [MediaFile(VideoPath(dir, 0), 1)]
    ensures Converted(dir, [broken, video], converts) == [MediaFile(AudioPath(dir, 1), video.origin)]
  {
    var o := [NoAudioStream, Downloaded];
    assert o[..1] == [NoAudioStream];
    assert KeptIndices(o, Fetched) == [1];
    var fs := [broken, video];
    assert fs[..1] == [broken];
    assert KeptIndices(fs, converts) == [1];
  }
}

=== FILE: validation.dfy ===
/** `validate_inputs`: the check of the four command-line strings (singer
    name, number of videos, clip duration, output file name) that runs before
    any download. Every problem is collected; nothing stops at the first. */
module Validation {
  import opened Common
  import opened PyText

  /** One message of `validate_inputs`, one constructor per `errors.append`. */
  datatype ValidationError =
    | EmptySingerName
    | TooFewVideos
    | VideosNotInteger
    | DurationTooShort
    | DurationNotInteger
    | EmptyOutputName
    | NotMp3

  /** The text the program prints for each error. */
  function Message(e: ValidationError): string {
    match e
    case EmptySingerName => "Singer name cannot be empty"
    case TooFewVideos => "Number of videos must be greater than 10"
    case VideosNotInteger => "Number of videos must be a valid integer"
    case DurationTooShort => "Audio duration must be greater than 20 seconds"
    case DurationNotInteger => "Audio duration must be a valid integer"
    case EmptyOutputName => "Output file name cannot be empty"
    case NotMp3 => "Output file must have .mp3 extension"
  }

  /** Each error has its own message. */
  lemma MessagesDistinct(a: ValidationError, b: ValidationError)
    requires a != b
    ensures Message(a) != Message(b)
  {
    // The only two messages of the same length part at "greater"/"a valid".
    if a.TooFewVideos? && b.VideosNotInteger? {
      assert Message(a)[25] == 'g' && Message(b)[25] == 'a';
    } else if a.VideosNotInteger? && b.TooFewVideos? {
      assert Message(a)[25] == 'a' && Message(b)[25] == 'g';
    }
  }

  /** The lines `main` prints under "Error: Invalid inputs detected:", one
      per error, in list order. */
  function ErrorLines(errors: seq<ValidationError>): seq<string> {
    seq(|errors|, i requires 0 <= i < |errors| => "  - " + Message(errors[i]))
  }

  /** The printed lines determine the error list: different lists never
      print the same report. */
  lemma ErrorLinesIdentifyErrors(a: seq<ValidationError>, b: seq<ValidationError>)
    ensures ErrorLines(a) == ErrorLines(b) ==> a == b
  {
    if ErrorLines(a) == ErrorLines(b) {
      assert |a| == |ErrorLines(a)| == |ErrorLines(b)| == |b|;
      forall i | 0 <= i < |a|
        ensures a[i] == b[i]
      {
        var la, lb := ErrorLines(a)[i], ErrorLines(b)[i];
        assert Message(a[i]) == la[4..];
        assert Message(b[i]) == lb[4..];
        if a[i] != b[i] {
          MessagesDistinct(a[i], b[i]);
        }
      }
    }
  }

  /** The argument an error is about: 0 singer name, 1 video count,
      2 duration, 3 output file. */
  function Field(e: ValidationError): nat {
    match e
    case EmptySingerName => 0
    case TooFewVideos | VideosNotInteger => 1
    case DurationTooShort | DurationNotInteger => 2
    case EmptyOutputName | NotMp3 => 3
  }

  // What each argument contributes, on its own.

  function SingerNameError(name: string): Option<ValidationError> {
    if Blank(StripSpaces, name) then Some(EmptySingerName) else None
  }

  function VideoCountError(count: string): Option<ValidationError> {
    CountVerdict(ParseInt(count))
  }

  /** The count rule applied to the outcome of `int(num_videos)`. */
  function CountVerdict(parsed: Option<int>): Option<ValidationError> {
    match parsed
    case None => Some(VideosNotInteger)
    case Some(n) => if n <= 10 then Some(TooFewVideos) else None
  }

  function DurationError(duration: string): Option<ValidationError> {
    DurationVerdict(ParseInt(duration))
  }

  /** The duration rule applied to the outcome of `int(audio_duration)`. */
  function DurationVerdict(parsed: Option<int>): Option<ValidationError> {
    match parsed
    case None => Some(DurationNotInteger)
    case Some(d) => if d < 20 then Some(DurationTooShort) else None
  }

  function OutputFileError(output: string): Option<ValidationError> {
    if Blank(StripSpaces, output) then Some(EmptyOutputName)
    else if !EndsWith(output, ".mp3") then Some(NotMp3)
    else None
  }

  /** The list `validate_inputs` returns: each argument's error, if any, in
      argument order. */
  function ExpectedErrors(name: string, count: string, duration: string, output: string): seq<ValidationError> {
    Listed(SingerNameError(name)) + Listed(VideoCountError(count))
    + Listed(DurationError(duration)) + Listed(OutputFileError(output))
  }

  /** The rules the four arguments must meet, stated independently of the
      error list. */
  predicate Acceptable(name: string, count: string, duration: string, output: string) {
    && !Blank(StripSpaces, name)
    && ParseInt(count).Some? && ParseInt(count).value > 10
    && ParseInt(duration).Some? && ParseInt(duration).value >= 20
    && !Blank(StripSpaces, output) && EndsWith(output, ".mp3")
  }

  /** The validator as the program runs it: appends to a list in four steps. */
  method ValidateInputs(singerName: string, numVideos: string, audioDuration: string, outputFile: string)
    returns (errors: seq<ValidationError>)
    ensures errors == ExpectedErrors(singerName, numVideos, audioDuration, outputFile)
    ensures errors == [] <==> Acceptable(singerName, numVideos, audioDuration, outputFile)
    ensures |errors| <= 4
  {
    errors := [];
    NameCheck(singerName);
    if |singerName| == 0 || |Strip(singerName)| == 0 {
      errors := errors + [EmptySingerName];
    }
    assert errors == Listed(SingerNameError(singerName));
    ghost var afterName := errors;
    var count := ParseInt(numVideos);
    CountCheck(count);
    if count.None? {
      errors := errors + [VideosNotInteger];
    } else if count.value <= 10 {
      errors := errors + [TooFewVideos];
    }
    assert errors == afterName + Listed(CountVerdict(count));
    ghost var afterCount := errors;
    var duration := ParseInt(audioDuration);
    DurationCheck(duration);
    if duration.None? {
      errors := errors + [DurationNotInteger];
    } else if duration.value < 20 {
      errors := errors + [DurationTooShort];
    }
    assert errors == afterCount + Listed(DurationVerdict(duration));
    ghost var afterDuration := errors;
    OutputCheck(outputFile);
    if |outputFile| == 0 || |Strip(outputFile)| == 0 {
      errors := errors + [EmptyOutputName];
    } else if !EndsWith(outputFile, ".mp3") {
      errors := errors + [NotMp3];
    }
    assert errors == afterDuration + Listed(OutputFileError(outputFile));
    ErrorsEmptyIffAcceptable(singerName, numVideos, audioDuration, outputFile);
    ErrorsAtMostFour(singerName, numVideos, audioDuration, outputFile);
  }

  /** Each argument contributes at most one error. */
  lemma ErrorsAtMostFour(name: string, count: string, duration: string, output: string)
    ensures |ExpectedErrors(name, count, duration, output)| <= 4
  {
    assert |Listed(SingerNameError(name))| <= 1;
    assert |Listed(VideoCountError(count))| <= 1;
    assert |Listed(DurationError(duration))| <= 1;
    assert |Listed(OutputFileError(output))| <= 1;
  }

  /** The name test as written, `not s or not s.strip()`, decides the name
      error. */
  lemma NameCheck(s: string)
    ensures Listed(SingerNameError(s)) == if |s| == 0 || |Strip(s)| == 0 then [EmptySingerName] else []
  {
    TrimEmptyIffBlank(StripSpaces, s);
  }

  /** The `try`/`except` of the count test as written decides the count
      error. */
  lemma CountCheck(parsed: Option<int>)
    ensures Listed(CountVerdict(parsed))
         == if parsed.None? then [VideosNotInteger]
            else if parsed.value <= 10 then [TooFewVideos]
            else []
  {
  }

  /** The `try`/`except` of the duration test as written decides the
      duration error. */
  lemma DurationCheck(parsed: Option<int>)
    ensures Listed(DurationVerdict(parsed))
         == if parsed.None? then [DurationNotInteger]
            else if parsed.value < 20 then [DurationTooShort]
            else []
  {
  }

  /** The output tests as written decide the output error. */
  lemma OutputCheck(s: string)
    ensures Listed(OutputFileError(s))
         == if |s| == 0 || |Strip(s)| == 0 then [EmptyOutputName]
            else if !EndsWith(s, ".mp3") then [NotMp3]
            else []
  {
    TrimEmptyIffBlank(StripSpaces, s);
  }

  /** The error list is empty exactly when all four rules hold. */
  lemma ErrorsEmptyIffAcceptable(name: string, count: string, duration: string, output: string)
    ensures ExpectedErrors(name, count, duration, output) == [] <==> Acceptable(name, count, duration, output)
  {
  }

  // The argument each error function speaks for.

  lemma SingerNameErrorField(name: string)
    ensures SingerNameError(name).Some? ==> Field(SingerNameError(name).value) == 0
  {
  }

  lemma VideoCountErrorField(count: string)
    ensures VideoCountError(count).Some? ==> Field(VideoCountError(count).value) == 1
  {
  }

  lemma DurationErrorField(duration: string)
    ensures DurationError(duration).Some? ==> Field(DurationError(duration).value) == 2
  {
  }

  lemma OutputFileErrorField(output: string)
    ensures OutputFileError(output).Some? ==> Field(OutputFileError(output).value) == 3
  {
  }

  /** Which of four at-most-one-element lists position `k` of their
      concatenation falls in. */
  function Segment(a: nat, b: nat, c: nat, k: nat): nat {
    if k < a then 0 else if k < a + b then 1 else if k < a + b + c then 2 else 3
  }

  lemma {:induction false} SegmentField(oa: Option<ValidationError>, ob: Option<ValidationError>,
                                        oc: Option<ValidationError>, od: Option<ValidationError>, k: nat)
    requires oa.Some? ==> Field(oa.value) == 0
    requires ob.Some? ==> Field(ob.value) == 1
    requires oc.Some? ==> Field(oc.value) == 2
    requires od.Some? ==> Field(od.value) == 3
    requires k < |Listed(oa) + Listed(ob) + Listed(oc) + Listed(od)|
    ensures Field((Listed(oa) + Listed(ob) + Listed(oc) + Listed(od))[k])
         == Segment(|Listed(oa)|, |Listed(ob)|, |Listed(oc)|, k)
  {
  }

  /** Errors come in argument order, at most one per argument, so at most four. */
  lemma ErrorsOrderedByField(name: string, count: string, duration: string, output: string)
    ensures var errs := ExpectedErrors(name, count, duration, output);
      |errs| <= 4 && forall i, j :: 0 <= i < j < |errs| ==> Field(errs[i]) < Field(errs[j])
  {
    var oa, ob, oc, od := SingerNameError(name), VideoCountError(count), DurationError(duration), OutputFileError(output);
    SingerNameErrorField(name);
    VideoCountErrorField(count);
    DurationErrorField(duration);
    OutputFileErrorField(output);
    var errs := Listed(oa) + Listed(ob) + Listed(oc) + Listed(od);
    assert errs == ExpectedErrors(name, count, duration, output);
    forall i, j | 0 <= i < j < |errs| ensures Field(errs[i]) < Field(errs[j]) {
      SegmentField(oa, ob, oc, od, i);
      SegmentField(oa, ob, oc, od, j);
    }
  }

  /** For each number the "valid integer" and the range message exclude each
      other, and a blank output name never also draws the extension message. */
  lemma MessagesExclusive(name: string, count: string, duration: string, output: string)
    ensures var errs := ExpectedErrors(name, count, duration, output);
      && !(VideosNotInteger in errs && TooFewVideos in errs)
      && !(DurationNotInteger in errs && DurationTooShort in errs)
      && !(EmptyOutputName in errs && NotMp3 in errs)
  {
    SingerNameErrorField(name);
    VideoCountErrorField(count);
    DurationErrorField(duration);
    OutputFileErrorField(output);
    OneErrorPerField(SingerNameError(name), VideoCountError(count), DurationError(duration), OutputFileError(output));
  }

  /** An error in the list came from the one argument its field names. */
  lemma OneErrorPerField(oa: Option<ValidationError>, ob: Option<ValidationError>,
                         oc: Option<ValidationError>, od: Option<ValidationError>)
    requires oa.Some? ==> Field(oa.value) == 0
    requires ob.Some? ==> Field(ob.value) == 1
    requires oc.Some? ==> Field(oc.value) == 2
    requires od.Some? ==> Field(od.value) == 3
    ensures var errs := Listed(oa) + Listed(ob) + Listed(oc) + Listed(od);
      forall e :: e in errs ==>
        && (Field(e) == 0 ==> oa == Some(e)) && (Field(e) == 1 ==> ob == Some(e))
        && (Field(e) == 2 ==> oc == Some(e)) && (Field(e) == 3 ==> od == Some(e))
  {
  }

  /** Each rule is checked on its own: one argument's error appears no matter
      what the other three are. */
  lemma ErrorsCollected(name: string, count: string, duration: string, output: string)
    ensures SingerNameError(name).Some? ==> SingerNameError(name).value in ExpectedErrors(name, count, duration, output)
    ensures VideoCountError(count).Some? ==> VideoCountError(count).value in ExpectedErrors(name, count, duration, output)
    ensures DurationError(duration).Some? ==> DurationError(duration).value in ExpectedErrors(name, count, duration, output)
    ensures OutputFileError(output).Some? ==> OutputFileError(output).value in ExpectedErrors(name, count, duration, output)
  {
  }

  /** A written-out count is accepted exactly when it exceeds 10: 10 is
      refused and 11 accepted. */
  lemma VideoCountBoundary(n: int)
    ensures VideoCountError(IntToString(n)) == (if n <= 10 then Some(TooFewVideos) else None)
  {
    ParseIntRoundTrip(n);
  }

  /** A written-out duration is accepted exactly when it is at least 20: 20 is
      accepted and 19 refused, although the refusal message reads "greater
      than 20". */
  lemma DurationBoundary(n: int)
    ensures DurationError(IntToString(n)) == (if n < 20 then Some(DurationTooShort) else None)
  {
    ParseIntRoundTrip(n);
  }
}
